=== FILE: README.md ===
# Reconcile core of the music data pipeline, in Dafny

This project models the part of the data pipeline that merges fetched records into the relational store. That part lives in `src/data_pipeline/get_data.py` and `src/data_pipeline/models.py`, and its pieces are:

- **Date normaliser** (`convert_date_string`).
- **Upsert engine** (`update_or_create_item`).
- **Batch processor** (`process_data`).
- **Listen-history reconciler** (`process_listen_history`).
- **Cycle** (`fetch_and_process_data`, `fetch_all_data`). The fetch results are inputs.

The store is pure data (`Models.Store`):

- **`users`, `tracks`:** maps from the externally supplied integer `id` to a row. A row maps column names to values.
- **`histories`:** the `listen_history` rows. Each has a store-assigned id, one user and two audit columns.
- **`links`:** the `listen_history_tracks` association, bare `(history id, track id)` pairs.

Each batch is a pure function from a store and a sequence of items to a `BatchResult`:

- `Committed(n)` with the new store;
- `RolledBack(v)` for a storage error (`SQLAlchemyError`) with the old store, after which the cycle goes on;
- `Escaped(e)` for a Python exception that is not a storage error (`KeyError`, `ValueError`, `TypeError`). Nothing is committed and the rest of the cycle is cut short.

Two things come from outside and are parameters (`Values.Env`):

- the ingestion time used by the `created_at`/`updated_at` column defaults;
- the ISO-8601 parser `datetime.fromisoformat`, a partial function.

The files:

- `wrappers.dfy`: `Option` and `Result`.
- `values.dfy`: field values, items, exceptions and the environment.
- `dates.dfy`: the date normaliser.
- `models.dfy`: tables, columns, constraints and the history/association tables.
- `upsert.dfy`: the upsert and its left fold.
- `batch.dfy`: `process_data`.
- `history.dfy`: `process_listen_history`.
- `cycle.dfy`: one cycle.
- `scenarios.dfy`: worked examples, each proved as a lemma.

## Behaviour the model follows from the code

- **Every trailing `Z` is stripped.** `convert_date_string` calls `rstrip("Z")` (`get_data.py:26`), which removes every trailing `Z`, not only one. So `"…ZZ"` parses like `"…"`.
- **A bad date string aborts the cycle.** `process_data` catches only `SQLAlchemyError` (`get_data.py:69`). A `ValueError` from the parser is not caught, so it leaves the batch uncommitted and propagates out of `fetch_all_data`, and the later batches of that cycle do not run. The same holds for a `KeyError` for a missing `id` and a `TypeError` for an unknown constructor keyword. `BatchProcessor.BadDateEscapes`, `BatchProcessor.MissingIdEscapes` and `BatchProcessor.UnknownKeywordEscapes` state this for a whole batch, and `Cycle.UsersEscapeStopsCycle` for the cycle. A storage error, by contrast, only rolls the batch back: `BatchProcessor.StagedBatchDoesNotEscape`.
- **A new id repeated within one batch rolls the batch back.** The session is configured with `autoflush=False` (`config.py:22`), so `session.get` does not see rows added earlier in the same batch. A new id that occurs twice is therefore constructed and added twice, and the commit fails on the primary key. Last-write-wins holds for ids already committed, and across batches. `BatchProcessor.RepeatedNewIdRollsBack` and `Scenarios.PartialUpdateInOneBatchRollsBack` state this. `BatchProcessor.ProcessDataIsUpsertFold` shows that every committed batch equals the left fold of the upsert.
- **Emails are checked row by row during the flush.** The unique index on `users.email` (`models.py:42`) is checked as each UPDATE runs. The flush updates stored rows in ascending id order, before any INSERT. So one batch cannot hand an email from a stored user to a stored user with a smaller id: the first UPDATE meets the old value. `Models.EmailsFreeInFlushOrder` states the condition, `BatchProcessor.Violated` checks it, and `Scenarios.EmailHandOverRollsBack` shows such a batch rolled back although the table it would leave has unique emails.
- **A missing timestamp on an existing row is written as NULL.** `process_data` always sets both timestamp keys, to `None` when upstream omits them. An INSERT leaves `None` columns out, so the ingestion-time default fires, but an UPDATE writes NULL. So the second sync of a row that carries no timestamps replaces its timestamps with NULL. `UpsertEngine.UpsertNotIdempotentOnNullStamp` states this.

## Model

| member | source | states |
|---|---|---|
| DateNormalizer.RStripZ | src/data_pipeline/get_data.py:26 | the stripped string is a prefix of the input that does not end in `Z`, and everything cut off is `Z` |
| DateNormalizer.RStripZUnique | src/data_pipeline/get_data.py:26 | those three properties determine the stripped string uniquely |
| DateNormalizer.RStripZAppendZ | src/data_pipeline/get_data.py:26 | appending any number of `Z`s does not change the stripped string |
| DateNormalizer.RStripZIdempotent | src/data_pipeline/get_data.py:26 | stripping twice is stripping once |
| DateNormalizer.ConvertDate | src/data_pipeline/get_data.py:23-27 | a non-string value passes through unchanged; a string converts iff the parser accepts the stripped string, giving that timestamp, and otherwise raises ValueError; a converted value is never a string |
| DateNormalizer.ConvertIgnoresTrailingZ | src/data_pipeline/get_data.py:26 | a string with trailing `Z`s converts exactly like the same string without them |
| DateNormalizer.ConvertIdempotent | src/data_pipeline/get_data.py:23-27 | converting an already converted value gives the same result |
| Models.Columns | src/data_pipeline/models.py:17-46 | both entity tables have `id` and both audit columns; only users have `email` |
| Models.Binds | src/data_pipeline/models.py:17-46 | an integer column takes NULL or an integer, a text column anything but a list, a timestamp column NULL or a timestamp |
| Models.UniqueEmails | src/data_pipeline/models.py:42 | no two users share a non-NULL email |
| Models.EmailsFreeInFlushOrder | src/data_pipeline/models.py:42 | a stored user whose email changes does not take an email a stored user with a larger id held before the batch |
| Models.FreshId | src/data_pipeline/models.py:53 | a new history id exceeds every id in use; it is 1 for an empty table and one past the largest id otherwise |
| Models.LinksFor | src/data_pipeline/models.py:9-14 | attaching tracks writes one association row per track, in order, each naming the history |
| Models.TracksOf | src/data_pipeline/models.py:62-66 | a track is among a history's tracks iff an association row pairs them |
| Models.TracksOfAppend | src/data_pipeline/models.py:9-14 | reading tracks from appended association rows gives the old tracks followed by the new ones |
| Models.TracksOfLinksFor | src/data_pipeline/models.py:62-66 | reading back the rows written for a history gives exactly the attached tracks, in order |
| Models.TracksOfUnnamed | src/data_pipeline/models.py:9-14 | a history that no association row names has no tracks |
| UpsertEngine.Patch | src/data_pipeline/get_data.py:45-47 | every supplied mapped column takes the item's value; every other column keeps its value; non-column keys never reach the row |
| UpsertEngine.InsertRow | src/data_pipeline/get_data.py:48-50 | the new row holds exactly the supplied fields; an audit column that is missing or NULL takes the ingestion time |
| UpsertEngine.LookUp | src/data_pipeline/get_data.py:44 | an integer, or a JSON array holding one integer, finds the row of that key if it is stored; an array of any other length is refused; any other value finds nothing |
| UpsertEngine.Upsert | src/data_pipeline/get_data.py:42-50 | a missing `id` raises KeyError; the upsert raises TypeError exactly when the lookup finds no row and some key is not a column; it succeeds exactly for an integer id that does not raise; every other failure is a storage error, including every array id other than a one-element array of a new id with an unknown key; an existing id is patched; a new id is inserted; only the row keyed by the id changes and exactly that key is added |
| UpsertEngine.UpsertKeepsKeyedRows | src/data_pipeline/get_data.py:44-50 | after an upsert every row is still keyed by its own `id` and holds only mapped columns |
| UpsertEngine.UpsertIdempotent | src/data_pipeline/get_data.py:44-50 | upserting the same item twice gives the table one upsert gives, when the id was stored or the item has no NULL timestamp |
| UpsertEngine.UpsertHoldsSupplied | src/data_pipeline/get_data.py:44-50 | after such an upsert the row holds the value of every supplied column |
| UpsertEngine.PatchAbsorbs | src/data_pipeline/get_data.py:46-47 | patching a row that already holds every supplied value changes nothing |
| UpsertEngine.UpsertNotIdempotentOnNullStamp | src/data_pipeline/models.py:27-28 | a new row with a NULL timestamp gets the ingestion time, and a second upsert of the same item writes NULL over it |
| UpsertEngine.UpsertAll | src/data_pipeline/get_data.py:57-64 | the fold's keys are the old keys plus the items' ids; rows no item names are unchanged; rows stay keyed by their ids |
| UpsertEngine.UpsertAllAppend | src/data_pipeline/get_data.py:57-64 | folding over a concatenation is folding over each part in turn |
| UpsertEngine.LastWriteWins | src/data_pipeline/get_data.py:57-64 | after a fold, every column the last item supplies holds that item's value |
| UpsertEngine.CreateThenPatch | test/test_get_data.py:81-105 | after a create and a partial update, a column holds the patch's value if the patch supplies it and the created value otherwise |
| UpsertEngine.UpsertTestScenario | test/test_get_data.py:95-105 | the repository's upsert test: the patched user has the new first name and email and keeps the last name |
| BatchProcessor.Normalize | src/data_pipeline/get_data.py:58-63 | both audit keys are present afterwards, each holding the conversion of the input's value, so no longer a string; other fields are unchanged; it fails, with ValueError, iff either date conversion fails |
| BatchProcessor.NormalizeAll | src/data_pipeline/get_data.py:57-63 | it succeeds iff every item normalises, and then holds every item normalised, position by position |
| BatchProcessor.Stage | src/data_pipeline/get_data.py:42-50 | staging raises exactly when the upsert would: KeyError `id` without an id, TypeError when the lookup in the committed table finds no row and a key is not a column; a non-integer id that does not raise leaves the staged table alone and marks the commit as doomed; a staged item with a new id is recorded as an insert and the staged keys grow by exactly that id |
| BatchProcessor.StageAll | src/data_pipeline/get_data.py:57-64 | the staged keys are the committed keys plus the ids inserted, which are the new ids in input order; it raises only ValueError, TypeError for an unknown keyword or KeyError `id`, and only when some item has a bad date or is one the upsert raises on |
| BatchProcessor.Violated | src/data_pipeline/get_data.py:65 | the commit is accepted iff no key is malformed, no new id is staged twice, every value binds and, for users, emails are unique both in the final table and at each UPDATE of the flush |
| BatchProcessor.ProcessData | src/data_pipeline/get_data.py:53-73 | a batch that does not commit leaves the store as it was; a commit touches only its own table, deletes no row, counts every item and leaves the table bindable with unique emails, reached without an email hand-over the flush refuses; an exception escapes iff staging raises, and it is staging's exception (ValueError, TypeError or KeyError `id`); once staging succeeds, the batch rolls back iff the commit breaks a constraint, with that violation |
| BatchProcessor.StageAllIsUpsertFold | src/data_pipeline/get_data.py:57-65 | without malformed keys or repeated new ids, staging gives the left fold of the upsert over the normalised items |
| BatchProcessor.StageIsUpsert | src/data_pipeline/get_data.py:44-50 | one staging step against the committed table equals one upsert against the staged table when the id is not already staged |
| BatchProcessor.ProcessDataIsUpsertFold | src/data_pipeline/get_data.py:55-73 | a committed batch leaves its table equal to the left fold of the upsert over the normalised items, in input order |
| BatchProcessor.UpsertIsStage | src/data_pipeline/get_data.py:44-50 | where an upsert against the staged table succeeds and the id is not already staged, staging against the committed table gives the same table |
| BatchProcessor.UpsertFoldIsStageAll | src/data_pipeline/get_data.py:57-64 | where the left fold of the upsert succeeds and no new id repeats, staging gives the fold's table with no malformed key |
| BatchProcessor.ProcessDataCommits | src/data_pipeline/get_data.py:53-73 | a batch commits, with the fold's table and a count of every item, whenever every item normalises, the fold succeeds, no new id repeats and the result meets its table's constraints |
| BatchProcessor.StageableStages | src/data_pipeline/get_data.py:57-64 | items that each normalise, name an integer id and supply only mapped columns stage without an exception or a malformed key |
| BatchProcessor.StageableStep | src/data_pipeline/get_data.py:44-50 | one such item stages without an exception or a malformed key |
| BatchProcessor.StageAllFailsOnBadDate | src/data_pipeline/get_data.py:57-64 | a date that does not parse anywhere in the batch makes staging raise |
| BatchProcessor.NormalizeKeepsRaisesOn | src/data_pipeline/get_data.py:58-64 | normalising an item does not change whether the upsert raises on it |
| BatchProcessor.StageAllFailsAt | src/data_pipeline/get_data.py:42-50 | an item the upsert raises on, with it and every item before it normalising, makes staging raise |
| BatchProcessor.StageAllLast | src/data_pipeline/get_data.py:57-64 | after a prefix that stages without an exception, the batch stages as its last normalised item does on the prefix's state |
| BatchProcessor.RaiseStops | src/data_pipeline/get_data.py:42-50 | after such a prefix, an item the upsert raises on stops staging with its own exception, TypeError or KeyError `id` |
| BatchProcessor.StageAllKeepsError | src/data_pipeline/get_data.py:57-64 | once a prefix of the batch has raised, the whole batch raises the same exception |
| BatchProcessor.BadDateEscapes | src/data_pipeline/get_data.py:57-73 | a date that does not parse anywhere in the batch makes an exception escape with the store unchanged, since only storage errors are caught |
| BatchProcessor.MissingIdEscapes | src/data_pipeline/get_data.py:42 | an item without `id`, with it and every item before it normalising, makes an exception escape; after stageable items it is KeyError `id` |
| BatchProcessor.UnknownKeywordEscapes | src/data_pipeline/get_data.py:48-49 | an item with a new integer id and a key that is not a column, with it and every item before it normalising, makes an exception escape; after stageable items it is that TypeError |
| BatchProcessor.StagedBatchDoesNotEscape | src/data_pipeline/get_data.py:65-70 | a batch of such stageable items never lets an exception escape; it rolls back iff the commit breaks a constraint |
| BatchProcessor.RepeatedNewIdRollsBack | src/data_pipeline/config.py:22 | an id not yet stored that occurs twice in one batch stops the batch from committing; when every item is stageable the batch rolls back with a duplicate key, and the cycle goes on |
| BatchProcessor.EmailClashRollsBack | src/data_pipeline/models.py:42 | a users batch whose upserts would leave two users with one email is not committed; with no repeated new id it rolls back, and if every value binds the violation is the duplicate email |
| BatchProcessor.ProcessDataKeepsWellFormed | src/data_pipeline/get_data.py:65-70 | a batch, whatever its outcome, keeps every table and reference constraint |
| HistoryReconciler.Resolves | src/data_pipeline/get_data.py:88-89 | an integer finds a row iff it is a key of the table; any other value finds none |
| HistoryReconciler.Resolve | src/data_pipeline/get_data.py:101-106 | a track is attached iff its id was listed and the track exists |
| HistoryReconciler.ResolveAppend | src/data_pipeline/get_data.py:101-106 | resolving a concatenation resolves each part in turn, so tracks keep their listed order |
| HistoryReconciler.ResolveOne | src/data_pipeline/get_data.py:102-106 | one listed id gives its track if it exists and nothing otherwise, so a track listed twice is attached twice |
| HistoryReconciler.Raises | src/data_pipeline/get_data.py:88-101 | the loop body raises iff `user_id` is missing, or the user exists and a date does not parse or `items` is missing or not a list |
| HistoryReconciler.Stamp | src/data_pipeline/models.py:55-56 | a supplied audit value is kept and a NULL one becomes the ingestion time |
| HistoryReconciler.ReconcileItem | src/data_pipeline/get_data.py:87-108 | a missing `user_id` raises KeyError; an unknown user is skipped with the store unchanged; otherwise, iff both dates convert and `items` is a list, exactly one history for that user is appended, with the resolved tracks and the converted or defaulted timestamps; it raises iff the item raises as described for `Raises`; users and tracks never change |
| HistoryReconciler.Attached | src/data_pipeline/get_data.py:87-93 | the number of items whose user exists: every item iff every user resolves, none iff no user does |
| HistoryReconciler.ReconcileAll | src/data_pipeline/get_data.py:87-108 | the loop finishes iff no item raises, as described for `Raises`; it only appends, leaves users and tracks alone, and adds one history per item whose user exists; what each history holds is stated by `ReconcileAllItem` |
| HistoryReconciler.ReconcileAllOne | src/data_pipeline/get_data.py:87-108 | a one-item loop is one pass of the loop body |
| HistoryReconciler.ReconcileAllAppend | src/data_pipeline/get_data.py:87-108 | the loop over a concatenation runs over each part in turn, each item against the store the items before it left, and the first exception ends it |
| HistoryReconciler.ReconcileAllKeepsTracks | src/data_pipeline/get_data.py:95-106 | later items never change the tracks of a history already stored |
| HistoryReconciler.ReconcileAllSplit | src/data_pipeline/get_data.py:87-108 | a finished loop is the loop over the items before item `i`, then item `i`, then the loop over the rest |
| HistoryReconciler.ReconcileAllItem | src/data_pipeline/get_data.py:87-108 | for the `i`-th item whose user exists, the history right after those of the earlier items belongs to that user, and its tracks in the final association table are exactly the item's listed ids that exist, in list order |
| HistoryReconciler.ProcessListenHistory | src/data_pipeline/get_data.py:83-118 | the batch commits iff the loop finishes and every new history's timestamps bind, and then holds the loop's store; an exception from the loop escapes; an uncommitted batch leaves the store as it was; a commit appends one history per item whose user exists and never touches users or tracks |
| HistoryReconciler.CommittedHistoryOfItem | src/data_pipeline/get_data.py:86-110 | a committed batch holds, for the `i`-th item whose user exists, at the position after the histories of the earlier resolving items, a history of that user whose tracks are exactly the item's listed ids that exist, in list order |
| HistoryReconciler.ReconcileItemStamped | src/data_pipeline/get_data.py:87-108 | an item that names a user and, when the user exists, lists its tracks and carries NULL, timestamp or parseable audit values passes the loop body with bindable timestamps |
| HistoryReconciler.ReconcileAllStamped | src/data_pipeline/get_data.py:87-108 | a loop over such items finishes and every new history's timestamps bind |
| HistoryReconciler.ListenBatchCommits | src/data_pipeline/get_data.py:86-110 | a listen-history batch of such items commits the loop's store, whatever users and tracks are unknown |
| HistoryReconciler.NewHistoryTracks | src/data_pipeline/get_data.py:95-108 | the new history has an id no history had, belongs to the item's user, and its tracks read back from the association are the listed ids that exist, in list order |
| HistoryReconciler.ReconcileIgnoresItemId | src/data_pipeline/models.py:53 | an `id` field in a listen-history item changes nothing: the store assigns the id |
| HistoryReconciler.ReconcileItemKeepsRefs | src/data_pipeline/models.py:54 | after one item every history still names an existing user and every association row an existing history and track |
| HistoryReconciler.ReconcileAllKeepsRefs | src/data_pipeline/get_data.py:87-108 | the whole loop keeps those references intact |
| HistoryReconciler.ProcessListenHistoryKeepsWellFormed | src/data_pipeline/get_data.py:110-118 | a listen-history batch, whatever its outcome, keeps every constraint of the store |
| Cycle.FetchAndProcess | src/data_pipeline/get_data.py:76-80 | an empty fetch changes nothing; a non-empty fetch fails iff its batch lets an exception escape, which is the error, and otherwise gives the batch's store; histories are untouched and keys only grow |
| Cycle.FetchAll | src/data_pipeline/get_data.py:121-131 | an all-empty fetch is a no-op; a cycle never deletes a row, a history or an association row |
| Cycle.UsersEscapeStopsCycle | src/data_pipeline/get_data.py:124-125 | an exception escaping the users batch ends the cycle with the store as it was |
| Cycle.TracksEscapeStopsCycle | src/data_pipeline/get_data.py:124-125 | an exception escaping the tracks batch ends the cycle with the users batch's store and no history written |
| Cycle.ThreeBatchCycle | src/data_pipeline/get_data.py:121-131 | after both entity batches go on, the listen-history batch runs last against their store, is skipped when empty, and cuts the cycle short exactly when it raises, reporting that batch's exception |
| Cycle.CycleKeepsWellFormed | src/data_pipeline/get_data.py:121-131 | a cycle keeps every constraint of the store |
| Cycle.FetchKeepsWellFormed | src/data_pipeline/get_data.py:76-80 | one fetched batch keeps every constraint of the store |
| Scenarios.NoStampsNormalize | src/data_pipeline/get_data.py:58-63 | an item without audit fields is normalised with both set to NULL |
| Scenarios.PlainInsertCommits | src/data_pipeline/get_data.py:53-65 | a one-item batch inserting a text-only row with a new id commits, the row stamped with the ingestion time |
| Scenarios.PlainTrackPatchCommits | src/data_pipeline/get_data.py:53-65 | a one-item tracks batch patching a stored row commits; supplied fields change, other fields stay |
| Scenarios.SongAInserted | src/data_pipeline/get_data.py:48-50 | the first sync of track 7 inserts it |
| Scenarios.SongAPatched | src/data_pipeline/get_data.py:45-47 | a later batch with only a genre keeps the track's name and adds the genre |
| Scenarios.PartialUpdateInOneBatchRollsBack | src/data_pipeline/config.py:22 | the same two items in one batch, with track 7 new, commit nothing |
| Scenarios.EmailHandOverRollsBack | src/data_pipeline/models.py:42 | users 1 and 2 holding "a" and "b", a batch moving them to "b" and "c" stages a table with unique emails and is still rolled back with a duplicate email |
| Scenarios.OneListenCommits | src/data_pipeline/get_data.py:87-110 | a one-item listen-history batch for an existing user commits exactly one history with the resolved tracks |
| Scenarios.UnknownTrackDropped | src/data_pipeline/get_data.py:101-106 | a listed track that does not exist is left out and the history is still created |
| Scenarios.EntitiesSynced | src/data_pipeline/get_data.py:124-125 | the users batch and then the tracks batch of a cycle commit one row each |
| Scenarios.ListenAfterSync | src/data_pipeline/get_data.py:127-129 | the listen-history batch sees the user and the track committed earlier in the same cycle |
| Scenarios.HistorySeesSameCycleTracks | src/data_pipeline/get_data.py:121-131 | a cycle that delivers a user, a track and a history naming both links the history to the track |

## Left out

- `fetch_data_from_api` (`get_data.py:30-39`): HTTP and JSON handling. Its result enters the model as an input sequence (`Cycle.Fetched`); a failed request is an empty sequence.
- `main` (`get_data.py:134-147`): the scheduler loop, `time.sleep` and the wall clock. It is an infinite timing loop with no pure behaviour to state.
- `get_db`, `config.py` and `__main__.py`: session and engine setup. Two settings shape the model: `autoflush=False` (`config.py:22`), and the default `DB_URL`, which selects SQLite (`config.py:9`). The engine behaviour taken from SQLite is listed below; another database would differ there.
- `datetime.fromisoformat`: a library parser. It is the abstract partial function `Env.parse`.
- Logging: side effects only.
- Concurrency and other writers to the store: the pipeline is single-threaded.
- BatchProcessor.Violated: the constraints are checked once, on the staged table, at commit. The row-by-row order matters only for the email hand-over between stored users, and that case is modelled by `Models.EmailsFreeInFlushOrder`. The reported violation comes from a fixed order of checks, not from the statement that fails first. The code only distinguishes commit from rollback.
- Models.FreshId: a new history id is one past the largest id in use. This is SQLite's rowid rule. Another database would use its own sequence.
- Models.Binds: a text column accepts integers and timestamps. This follows SQLite's type affinity. A stricter database would refuse them.
- Values.Value: integers are unbounded. SQLite's INTEGER holds 64 bits, and the driver refuses a larger Python int at flush. `Models.Binds` does not bound integers, so a batch holding such an int commits in the model but fails in the source. Whether that failure is a storage error or an escaping `OverflowError` depends on how the driver error is wrapped, and that is not modelled.
- UpsertEngine.Upsert: an item whose `id` is NULL or a string, and whose keys are all columns, is modelled as refused by the database, as SQLite refuses a non-integer in an integer primary key with a datatype mismatch. SQLite would in fact give a NULL id the next rowid and may coerce a numeric string; that is not modelled. A one-element JSON array holding a numeric string is likewise taken to find no row.
- HistoryReconciler.Resolves: a `user_id` or track id that is not an integer never resolves. The source differs in three ways. A numeric string may be coerced by the database and found. A JSON array of one element is taken as the identity tuple and finds the row of that element. An array of any other length makes the lookup raise a storage error, which rolls back the whole listen-history batch. The model treats every array as not found and goes on.
- HistoryReconciler.ReconcileItem: an `items` value that is not a JSON array raises TypeError. Python would iterate a string character by character.
- UpsertEngine.Upsert: a key naming a relationship (`listen_histories` on users and tracks) is treated like any other non-column key: a TypeError on insert, and ignored by `UpsertEngine.Patch` on an existing row. The source accepts it in the constructor and assigns it with `setattr` on the patch path, so an empty list would detach a user's histories or drop a track's association rows; what the ORM makes of a list of plain ids is not modelled either.
- BatchProcessor.Stage: a JSON-array id of length other than one is refused by `session.get` at once, which in the source ends the loop and rolls the batch back. The model marks the commit as doomed and stages on, so the batch still rolls back, unless a later item raises an exception, which then escapes in the model while the source has already rolled back.
- Values.Value: JSON booleans, floats and nested objects are not represented.
- BatchProcessor.Normalize: `process_data` writes the normalised dates back into the caller's dicts. The model returns a new item instead, since nothing reads the dicts afterwards.
- UpsertEngine.UpsertTestScenario: the creation half of the repository's test is covered through `UpsertEngine.CreateThenPatch` and `UpsertEngine.InsertRow`, not restated separately.

=== FILE: batch.dfy ===
/** The batch processor `process_data`: one session per batch, timestamps
    normalised before every upsert, one commit at the end. A storage error rolls
    the whole batch back; any other exception escapes with nothing committed.

    The session is created with autoflush off, so a lookup by id sees only the
    rows committed before the batch, never the rows the batch itself has
    staged. An id that is new to the table and repeated inside one batch is
    therefore staged as two inserts, and the database refuses the commit. */
module BatchProcessor {
  import opened Wrappers
  import opened Values
  import opened Models
  import opened DateNormalizer
  import opened UpsertEngine

  /** How a batch ended. `count` is the number of items logged as processed. */
  datatype Status =
    | Committed(count: nat)
    | RolledBack(violation: Violation)
    | Escaped(exception: Exception)

  datatype BatchResult = BatchResult(store: Store, status: Status)

  /** Lines 58-63 of the batch loop: `created_at` and `updated_at` are always
      written back, converted; an absent one becomes None. */
  function Normalize(item: Item, parse: string -> Option<DateTime>): (r: Result<Item, Exception>)
    ensures r.Ok? ==> r.value.Keys == item.Keys + Timestamps
    ensures r.Ok? ==> forall c :: c in item && c !in Timestamps ==> r.value[c] == item[c]
    ensures r.Ok? ==> forall c :: c in Timestamps ==> !r.value[c].Str? && (!Get(item, c).Str? ==> r.value[c] == Get(item, c))
    ensures r.Ok? ==> forall c :: c in Timestamps ==> ConvertDate(Get(item, c), parse) == Ok(r.value[c])
    ensures r.Err? <==> ConvertDate(Get(item, "created_at"), parse).Err? || ConvertDate(Get(item, "updated_at"), parse).Err?
    ensures r.Err? ==> r.error.ValueError?
  {
    var created :- ConvertDate(Get(item, "created_at"), parse);
    var updated :- ConvertDate(Get(item, "updated_at"), parse);
    Ok(item["created_at" := created]["updated_at" := updated])
  }

  /** Every item normalised, stopping at the first failure. */
  function NormalizeAll(items: seq<Item>, parse: string -> Option<DateTime>): (r: Result<seq<Item>, Exception>)
    ensures r.Ok? ==> |r.value| == |items|
    ensures r.Ok? ==> forall i :: 0 <= i < |items| ==> Normalize(items[i], parse) == Ok(r.value[i])
    ensures r.Ok? <==> forall i :: 0 <= i < |items| ==> Normalize(items[i], parse).Ok?
    decreases |items|
  {
    if |items| == 0 then Ok([])
    else
      assert forall i :: 0 <= i < |items| - 1 ==> items[..|items| - 1][i] == items[i];
      var init :- NormalizeAll(items[..|items| - 1], parse);
      var last :- Normalize(items[|items| - 1], parse);
      Ok(init + [last])
  }

  predicate Distinct(s: seq<int>) {
    forall i, j :: 0 <= i < j < |s| ==> s[i] != s[j]
  }

  function Elems(s: seq<int>): set<int> {
    set i | 0 <= i < |s| :: s[i]
  }

  /** What the session holds before the commit: the working table, the ids of
      the rows staged as new (in staging order, repeats kept), and whether some
      staged row has a non-integer key. */
  datatype Staged = Staged(table: Table, added: seq<int>, malformed: bool)

  /** One call of `update_or_create_item` under autoflush off: the lookup goes
      to the committed table `base`, the change goes to the staged state. It
      raises exactly when the upsert does; an `id` that is not an integer
      never changes the staged table but dooms the commit (a lookup the
      database refuses is taken to fail at the commit too). */
  function Stage(kind: Kind, base: Table, st: Staged, item: Item, now: DateTime): (r: Result<Staged, Exception>)
    ensures r.Ok? ==> r.value.added == st.added + NewId(item, base) && (st.malformed ==> r.value.malformed)
    ensures r.Ok? && base.Keys <= st.table.Keys ==> r.value.table.Keys == st.table.Keys + Elems(NewId(item, base))
    ensures r.Err? <==> RaisesOn(kind, base, item)
    ensures r.Err? ==> r.error == (if "id" in item then TypeError("unexpected keyword") else KeyError("id"))
    ensures "id" in item && !item["id"].Int? && r.Ok? ==> r.value == st.(malformed := true)
  {
    if "id" !in item then Err(KeyError("id"))
    else match item["id"]
      case Int(k) =>
        if k in base then
          var row := if k in st.table then st.table[k] else base[k];
          Ok(st.(table := st.table[k := Patch(kind, row, item)]))
        else if item.Keys <= Columns(kind) then
          assert [k][0] == k && Elems([k]) == {k};
          Ok(Staged(st.table[k := InsertRow(item, now)], st.added + [k], st.malformed))
        else Err(TypeError("unexpected keyword"))
      case _ =>
        if LookUp(base, item["id"]).Missing? && !(item.Keys <= Columns(kind)) then Err(TypeError("unexpected keyword"))
        else Ok(st.(malformed := true))
  }

  /** The id `item` inserts into a table holding `base`, if any. */
  function NewId(item: Item, base: Table): seq<int> {
    var id := Get(item, "id");
    if id.Int? && id.i !in base then [id.i] else []
  }

  /** The ids, in input order, of the items that name an integer id absent
      from `base`: the rows a batch inserts. */
  function NewIds(items: seq<Item>, base: Table): (r: seq<int>)
    ensures forall i :: 0 <= i < |r| ==> r[i] !in base
    decreases |items|
  {
    if |items| == 0 then []
    else NewIds(items[..|items| - 1], base) + NewId(items[|items| - 1], base)
  }

  lemma ElemsAppend(a: seq<int>, b: seq<int>)
    ensures Elems(a + b) == Elems(a) + Elems(b)
  {
    var c := a + b;
    forall x | x in Elems(c) ensures x in Elems(a) + Elems(b) {
      var i :| 0 <= i < |c| && c[i] == x;
      if i >= |a| { assert b[i - |a|] == x; }
    }
    forall x | x in Elems(a) + Elems(b) ensures x in Elems(c) {
      if x in Elems(a) {
        var i :| 0 <= i < |a| && a[i] == x;
        assert c[i] == x;
      } else {
        var i :| 0 <= i < |b| && b[i] == x;
        assert c[|a| + i] == x;
      }
    }
  }

  /** The loop of `process_data` up to the commit. */
  function StageAll(kind: Kind, base: Table, items: seq<Item>, env: Env): (r: Result<Staged, Exception>)
    ensures r.Ok? ==> r.value.table.Keys == base.Keys + Elems(r.value.added)
    ensures r.Ok? ==> r.value.added == NewIds(items, base)
    ensures r.Err? ==> r.error.ValueError? || r.error == TypeError("unexpected keyword") || r.error == KeyError("id")
    ensures r.Err? ==> exists i :: 0 <= i < |items| && (Normalize(items[i], env.parse).Err? || RaisesOn(kind, base, items[i]))
    decreases |items|
  {
    if |items| == 0 then Ok(Staged(base, [], false))
    else
      var prefix, last := items[..|items| - 1], items[|items| - 1];
      match StageAll(kind, base, prefix, env)
      case Err(e) => Err(e)
      case Ok(st) =>
        match Normalize(last, env.parse)
        case Err(e) => Err(e)
        case Ok(x) =>
          assert Get(x, "id") == Get(last, "id");
          NormalizeKeepsRaisesOn(kind, base, last, env.parse);
          var r := Stage(kind, base, st, x, env.now);
          if r.Ok? then ElemsAppend(st.added, NewId(x, base)); r else r
  }

  /** The database's verdict on the commit of `st` over the committed table
      `base`: a constraint the commit breaks, checked in a fixed order, if any. */
  function Violated(kind: Kind, base: Table, st: Staged): (r: Option<Violation>)
    ensures r.None? <==> && !st.malformed && Distinct(st.added) && Bindable(st.table)
                         && (kind == Users ==> UniqueEmails(st.table) && EmailsFreeInFlushOrder(base, st.table))
    ensures r == Some(DuplicateEmail) ==> kind == Users
  {
    if st.malformed then Some(MalformedKey)
    else if !Distinct(st.added) then Some(DuplicateKey)
    else if !Bindable(st.table) then Some(UnbindableValue)
    else if kind == Users && !(UniqueEmails(st.table) && EmailsFreeInFlushOrder(base, st.table)) then Some(DuplicateEmail)
    else None
  }

  /** `process_data(model, items)`. All or nothing: unless the batch commits,
      the store is returned exactly as it was; a committed batch touches only
      its own table, deletes no row and leaves it within the table's constraints. */
  function ProcessData(kind: Kind, s: Store, items: seq<Item>, env: Env): (r: BatchResult)
    ensures !r.status.Committed? ==> r.store == s
    ensures r.status.Committed? ==> r.status.count == |items|
    ensures r.store.histories == s.histories && r.store.links == s.links
    ensures kind == Users ==> r.store.tracks == s.tracks
    ensures kind == Tracks ==> r.store.users == s.users
    ensures TableOf(s, kind).Keys <= TableOf(r.store, kind).Keys
    ensures r.status.Committed? ==> Bindable(TableOf(r.store, kind)) && (kind == Users ==> UniqueEmails(r.store.users))
    ensures r.status.Committed? && kind == Users ==> EmailsFreeInFlushOrder(s.users, r.store.users)
    ensures r.status.Escaped? ==> r.status.exception.ValueError? || r.status.exception.TypeError? || r.status.exception == KeyError("id")
    ensures r.status.Escaped? <==> StageAll(kind, TableOf(s, kind), items, env).Err?
    ensures r.status.Escaped? ==> r.status.exception == StageAll(kind, TableOf(s, kind), items, env).error
    ensures StageAll(kind, TableOf(s, kind), items, env).Ok? ==>
              (r.status.RolledBack? <==> Violated(kind, TableOf(s, kind), StageAll(kind, TableOf(s, kind), items, env).value).Some?)
    ensures r.status.RolledBack? ==>
              StageAll(kind, TableOf(s, kind), items, env).Ok? &&
              Some(r.status.violation) == Violated(kind, TableOf(s, kind), StageAll(kind, TableOf(s, kind), items, env).value)
  {
    var base := TableOf(s, kind);
    match StageAll(kind, base, items, env)
    case Err(e) => BatchResult(s, Escaped(e))
    case Ok(st) =>
      match Violated(kind, base, st)
      case Some(v) => BatchResult(s, RolledBack(v))
      case None => BatchResult(WithTable(s, kind, st.table), Committed(|items|))
  }

  /** Staging under autoflush off agrees with the plain left fold of `Upsert`
      whenever no key is malformed and no new id is staged twice: then every
      lookup the fold makes against the growing table gives the same answer as
      the session's lookup against the committed one. */
  lemma {:induction false} StageAllIsUpsertFold(kind: Kind, base: Table, items: seq<Item>, env: Env)
    requires StageAll(kind, base, items, env).Ok?
    requires !StageAll(kind, base, items, env).value.malformed
    requires Distinct(StageAll(kind, base, items, env).value.added)
    ensures NormalizeAll(items, env.parse).Ok?
    ensures UpsertAll(kind, base, NormalizeAll(items, env.parse).value, env.now) == Ok(StageAll(kind, base, items, env).value.table)
    decreases |items|
  {
    if |items| > 0 {
      var prefix, last := items[..|items| - 1], items[|items| - 1];
      var st := StageAll(kind, base, prefix, env).value;
      var x := Normalize(last, env.parse).value;
      var fin := StageAll(kind, base, items, env).value;
      assert Stage(kind, base, st, x, env.now) == Ok(fin);
      DistinctAppend(st.added, NewId(x, base));
      StageAllIsUpsertFold(kind, base, prefix, env);
      var ns := NormalizeAll(prefix, env.parse).value;
      assert NormalizeAll(items, env.parse) == Ok(ns + [x]);
      assert (ns + [x])[..|ns|] == ns;
      StageIsUpsert(kind, base, st, x, env.now);
    }
  }

  lemma DistinctAppend(a: seq<int>, b: seq<int>)
    requires Distinct(a + b)
    ensures Distinct(a)
    ensures Elems(a) !! Elems(b)
  {
    forall i, j | 0 <= i < j < |a| ensures a[i] != a[j] {
      assert (a + b)[i] == a[i] && (a + b)[j] == a[j];
    }
    forall i, j | 0 <= i < |a| && 0 <= j < |b| ensures a[i] != b[j] {
      assert (a + b)[i] == a[i] && (a + b)[|a| + j] == b[j];
    }
  }

  /** One staging step against the committed table does what `Upsert` does
      against the staged one, provided a new id has not been staged before. */
  lemma StageIsUpsert(kind: Kind, base: Table, st: Staged, x: Item, now: DateTime)
    requires Stage(kind, base, st, x, now).Ok? && !Stage(kind, base, st, x, now).value.malformed
    requires st.table.Keys == base.Keys + Elems(st.added)
    requires Elems(st.added) !! Elems(NewId(x, base))
    ensures Upsert(kind, st.table, x, now) == Ok(Stage(kind, base, st, x, now).value.table)
  {
    var k := x["id"].i;
    if k in base {
      assert k in st.table;
    } else {
      assert NewId(x, base) == [k] && [k][0] == k;
      assert k !in st.table;
    }
  }

  /** A committed batch leaves its table exactly as upserting the normalised
      items one by one, in input order, would: a later item with the same id
      wins. */
  lemma ProcessDataIsUpsertFold(kind: Kind, s: Store, items: seq<Item>, env: Env)
    requires ProcessData(kind, s, items, env).status.Committed?
    ensures NormalizeAll(items, env.parse).Ok?
    ensures UpsertAll(kind, TableOf(s, kind), NormalizeAll(items, env.parse).value, env.now) ==
            Ok(TableOf(ProcessData(kind, s, items, env).store, kind))
  {
    StageAllIsUpsertFold(kind, TableOf(s, kind), items, env);
  }

  /** The converse step: where `Upsert` succeeds against the staged table and
      a new id has not been staged before, staging against the committed
      table succeeds with the same table. */
  lemma UpsertIsStage(kind: Kind, base: Table, st: Staged, x: Item, now: DateTime)
    requires Upsert(kind, st.table, x, now).Ok?
    requires st.table.Keys == base.Keys + Elems(st.added)
    requires Elems(st.added) !! Elems(NewId(x, base))
    ensures Stage(kind, base, st, x, now) == Ok(Staged(Upsert(kind, st.table, x, now).value, st.added + NewId(x, base), st.malformed))
  {
    var k := x["id"].i;
    if k !in base {
      assert NewId(x, base) == [k] && [k][0] == k;
      assert k !in st.table;
    }
  }

  /** Where the plain fold of `Upsert` over the normalised items succeeds and
      no new id repeats, the session stages exactly the fold's table, with no
      malformed key. */
  lemma {:induction false} UpsertFoldIsStageAll(kind: Kind, base: Table, items: seq<Item>, env: Env, t: Table)
    requires NormalizeAll(items, env.parse).Ok?
    requires UpsertAll(kind, base, NormalizeAll(items, env.parse).value, env.now) == Ok(t)
    requires Distinct(NewIds(items, base))
    ensures StageAll(kind, base, items, env) == Ok(Staged(t, NewIds(items, base), false))
    decreases |items|
  {
    if |items| > 0 {
      var prefix, last := items[..|items| - 1], items[|items| - 1];
      var ns := NormalizeAll(prefix, env.parse).value;
      var x := Normalize(last, env.parse).value;
      assert NormalizeAll(items, env.parse) == Ok(ns + [x]);
      assert (ns + [x])[..|ns|] == ns && (ns + [x])[|ns|] == x;
      var t' := UpsertAll(kind, base, ns, env.now).value;
      assert Upsert(kind, t', x, env.now) == Ok(t);
      assert NewId(x, base) == NewId(last, base);
      DistinctAppend(NewIds(prefix, base), NewId(last, base));
      UpsertFoldIsStageAll(kind, base, prefix, env, t');
      UpsertIsStage(kind, base, Staged(t', NewIds(prefix, base), false), x, env.now);
    }
  }

  /** The converse of `ProcessDataIsUpsertFold`: a batch commits, with the
      fold's table, whenever every item normalises, the fold of `Upsert`
      succeeds, no new id repeats and the result meets the table's
      constraints. */
  lemma ProcessDataCommits(kind: Kind, s: Store, items: seq<Item>, env: Env, t: Table)
    requires NormalizeAll(items, env.parse).Ok?
    requires UpsertAll(kind, TableOf(s, kind), NormalizeAll(items, env.parse).value, env.now) == Ok(t)
    requires Distinct(NewIds(items, TableOf(s, kind)))
    requires Bindable(t) && (kind == Users ==> UniqueEmails(t) && EmailsFreeInFlushOrder(s.users, t))
    ensures ProcessData(kind, s, items, env) == BatchResult(WithTable(s, kind, t), Committed(|items|))
  {
    UpsertFoldIsStageAll(kind, TableOf(s, kind), items, env, t);
  }

  lemma {:induction false} NewIdsContains(items: seq<Item>, base: Table, i: int)
    requires 0 <= i < |items| && NewId(items[i], base) != []
    ensures NewId(items[i], base)[0] in NewIds(items, base)
    decreases |items|
  {
    if i < |items| - 1 {
      var prefix := items[..|items| - 1];
      assert prefix[i] == items[i];
      NewIdsContains(prefix, base, i);
    }
  }

  lemma {:induction false} NewIdsRepeat(items: seq<Item>, base: Table, i: int, j: int)
    requires 0 <= i < j < |items|
    requires Get(items[i], "id") == Get(items[j], "id") && NewId(items[i], base) != []
    ensures !Distinct(NewIds(items, base))
    decreases |items|
  {
    var prefix := items[..|items| - 1];
    var ids := NewIds(items, base);
    var pre := NewIds(prefix, base);
    assert ids == pre + NewId(items[|items| - 1], base);
    if j < |items| - 1 {
      assert prefix[i] == items[i] && prefix[j] == items[j];
      NewIdsRepeat(prefix, base, i, j);
      var a, b :| 0 <= a < b < |pre| && pre[a] == pre[b];
      assert ids[a] == ids[b];
    } else {
      assert prefix[i] == items[i];
      NewIdsContains(prefix, base, i);
      var a :| 0 <= a < |pre| && pre[a] == NewId(items[i], base)[0];
      assert ids[a] == ids[|pre|];
    }
  }

  /** Items that get through staging without an exception: each normalises,
      names an integer id and supplies only mapped columns. */
  predicate Stageable(kind: Kind, items: seq<Item>, parse: string -> Option<DateTime>) {
    forall i :: 0 <= i < |items| ==>
      && Normalize(items[i], parse).Ok?
      && "id" in items[i] && items[i]["id"].Int?
      && items[i].Keys <= Columns(kind)
  }

  /** Such items stage without an exception and without a malformed key. */
  lemma {:induction false} StageableStages(kind: Kind, base: Table, items: seq<Item>, env: Env)
    requires Stageable(kind, items, env.parse)
    ensures StageAll(kind, base, items, env).Ok? && !StageAll(kind, base, items, env).value.malformed
    decreases |items|
  {
    if |items| > 0 {
      var prefix, last := items[..|items| - 1], items[|items| - 1];
      assert forall i :: 0 <= i < |prefix| ==> prefix[i] == items[i];
      StageableStages(kind, base, prefix, env);
      StageableStep(kind, base, StageAll(kind, base, prefix, env).value, last, env);
    }
  }

  lemma StageableStep(kind: Kind, base: Table, st: Staged, item: Item, env: Env)
    requires !st.malformed && Normalize(item, env.parse).Ok?
    requires "id" in item && item["id"].Int? && item.Keys <= Columns(kind)
    ensures Stage(kind, base, st, Normalize(item, env.parse).value, env.now).Ok?
    ensures !Stage(kind, base, st, Normalize(item, env.parse).value, env.now).value.malformed
  {
    var x := Normalize(item, env.parse).value;
    assert x.Keys <= Columns(kind) && x["id"] == item["id"];
  }

  /** A date that does not parse stops staging, unless an earlier exception
      already has. */
  lemma {:induction false} StageAllFailsOnBadDate(kind: Kind, base: Table, items: seq<Item>, env: Env)
    requires NormalizeAll(items, env.parse).Err?
    ensures StageAll(kind, base, items, env).Err?
    decreases |items|
  {
    var prefix := items[..|items| - 1];
    if NormalizeAll(prefix, env.parse).Err? {
      StageAllFailsOnBadDate(kind, base, prefix, env);
    }
  }

  /** Normalising an item touches only its timestamps, so it raises on the
      upsert exactly when the raw item would. */
  lemma NormalizeKeepsRaisesOn(kind: Kind, base: Table, item: Item, parse: string -> Option<DateTime>)
    requires Normalize(item, parse).Ok?
    ensures RaisesOn(kind, base, Normalize(item, parse).value) == RaisesOn(kind, base, item)
  {
    var x := Normalize(item, parse).value;
    assert x.Keys <= Columns(kind) <==> item.Keys <= Columns(kind);
    if "id" in item {
      assert x["id"] == item["id"];
    }
  }

  /** So does an item on which the upsert raises, when its date fields, and
      those of every item before it, convert. */
  lemma {:induction false} StageAllFailsAt(kind: Kind, base: Table, items: seq<Item>, env: Env, i: int)
    requires 0 <= i < |items| && RaisesOn(kind, base, items[i])
    requires forall j :: 0 <= j <= i ==> Normalize(items[j], env.parse).Ok?
    ensures StageAll(kind, base, items, env).Err?
    decreases |items|
  {
    var prefix, last := items[..|items| - 1], items[|items| - 1];
    if i < |items| - 1 {
      assert forall j :: 0 <= j <= i ==> prefix[j] == items[j];
      StageAllFailsAt(kind, base, prefix, env, i);
    } else {
      NormalizeKeepsRaisesOn(kind, base, last, env.parse);
    }
  }

  /** A date string the parser refuses, anywhere in the batch, makes an
      exception escape: the batch is not committed and the cycle stops. */
  lemma BadDateEscapes(kind: Kind, s: Store, items: seq<Item>, env: Env)
    requires NormalizeAll(items, env.parse).Err?
    ensures StageAll(kind, TableOf(s, kind), items, env).Err?
    ensures ProcessData(kind, s, items, env) == BatchResult(s, Escaped(StageAll(kind, TableOf(s, kind), items, env).error))
  {
    StageAllFailsOnBadDate(kind, TableOf(s, kind), items, env);
  }

  /** An item without an `id` makes an exception escape, unless a date
      before it already has; after a prefix that stages cleanly, the
      exception is that item's KeyError. */
  lemma MissingIdEscapes(kind: Kind, s: Store, items: seq<Item>, env: Env, i: int)
    requires 0 <= i < |items| && "id" !in items[i]
    requires forall j :: 0 <= j <= i ==> Normalize(items[j], env.parse).Ok?
    ensures ProcessData(kind, s, items, env).status.Escaped?
    ensures Stageable(kind, items[..i], env.parse) ==>
              ProcessData(kind, s, items, env).status == Escaped(KeyError("id"))
  {
    var base := TableOf(s, kind);
    StageAllFailsAt(kind, base, items, env, i);
    if Stageable(kind, items[..i], env.parse) {
      StageableStages(kind, base, items[..i], env);
      RaiseStops(kind, base, items, env, i);
      StageAllKeepsError(kind, base, items, env, i + 1);
    }
  }

  /** An item with a new integer id and a key that is not a mapped column
      makes the constructor raise, which escapes, unless a date or an item
      before it already has raised; after a prefix that stages cleanly, the
      exception is that item's TypeError. */
  lemma UnknownKeywordEscapes(kind: Kind, s: Store, items: seq<Item>, env: Env, i: int)
    requires 0 <= i < |items| && "id" in items[i] && items[i]["id"].Int? && items[i]["id"].i !in TableOf(s, kind)
    requires !(items[i].Keys <= Columns(kind))
    requires forall j :: 0 <= j <= i ==> Normalize(items[j], env.parse).Ok?
    ensures ProcessData(kind, s, items, env).status.Escaped?
    ensures Stageable(kind, items[..i], env.parse) ==>
              ProcessData(kind, s, items, env).status == Escaped(TypeError("unexpected keyword"))
  {
    var base := TableOf(s, kind);
    StageAllFailsAt(kind, base, items, env, i);
    if Stageable(kind, items[..i], env.parse) {
      StageableStages(kind, base, items[..i], env);
      RaiseStops(kind, base, items, env, i);
      StageAllKeepsError(kind, base, items, env, i + 1);
    }
  }

  /** The last item of a batch whose other items stage without an exception. */
  lemma StageAllLast(kind: Kind, base: Table, items: seq<Item>, env: Env, st: Staged, y: Item)
    requires |items| > 0
    requires StageAll(kind, base, items[..|items| - 1], env) == Ok(st)
    requires Normalize(items[|items| - 1], env.parse) == Ok(y)
    ensures StageAll(kind, base, items, env) == Stage(kind, base, st, y, env.now)
  {
  }

  /** Staging stops at the first item the upsert raises on, when every item
      before it stages without an exception, with that item's exception. */
  lemma RaiseStops(kind: Kind, base: Table, items: seq<Item>, env: Env, i: int)
    requires 0 <= i < |items| && RaisesOn(kind, base, items[i])
    requires Normalize(items[i], env.parse).Ok? && StageAll(kind, base, items[..i], env).Ok?
    ensures StageAll(kind, base, items[..i + 1], env) ==
            Err(if "id" in items[i] then TypeError("unexpected keyword") else KeyError("id"))
  {
    var upto := items[..i + 1];
    assert upto[..|upto| - 1] == items[..i] && upto[|upto| - 1] == items[i];
    NormalizeKeepsRaisesOn(kind, base, items[i], env.parse);
    var x := Normalize(items[i], env.parse).value;
    var st := StageAll(kind, base, items[..i], env).value;
    StageAllLast(kind, base, upto, env, st, x);
    assert "id" in x <==> "id" in items[i];
  }

  /** Once a prefix of the batch has raised, the rest is never staged. */
  lemma {:induction false} StageAllKeepsError(kind: Kind, base: Table, items: seq<Item>, env: Env, n: int)
    requires 0 <= n <= |items| && StageAll(kind, base, items[..n], env).Err?
    ensures StageAll(kind, base, items, env) == StageAll(kind, base, items[..n], env)
    decreases |items| - n
  {
    if n < |items| {
      var prefix := items[..|items| - 1];
      assert prefix[..n] == items[..n];
      StageAllKeepsError(kind, base, prefix, env, n);
    } else {
      assert items[..n] == items;
    }
  }

  /** Once staging succeeds nothing escapes: the batch commits or, on a
      storage error, rolls back with the cycle going on. */
  lemma StagedBatchDoesNotEscape(kind: Kind, s: Store, items: seq<Item>, env: Env)
    requires Stageable(kind, items, env.parse)
    ensures !ProcessData(kind, s, items, env).status.Escaped?
    ensures ProcessData(kind, s, items, env).status.RolledBack? <==>
              Violated(kind, TableOf(s, kind), StageAll(kind, TableOf(s, kind), items, env).value).Some?
  {
    StageableStages(kind, TableOf(s, kind), items, env);
  }

  /** An id that is not yet in the table and occurs twice in one batch makes
      the whole batch fail: both occurrences are staged as inserts. */
  lemma RepeatedNewIdRollsBack(kind: Kind, s: Store, items: seq<Item>, env: Env, i: int, j: int, k: int)
    requires 0 <= i < j < |items|
    requires Get(items[i], "id") == Int(k) && Get(items[j], "id") == Int(k)
    requires k !in TableOf(s, kind)
    ensures !ProcessData(kind, s, items, env).status.Committed?
    ensures Stageable(kind, items, env.parse) ==> ProcessData(kind, s, items, env).status == RolledBack(DuplicateKey)
  {
    var base := TableOf(s, kind);
    if Stageable(kind, items, env.parse) {
      StageableStages(kind, base, items, env);
    }
    if StageAll(kind, base, items, env).Ok? {
      NewIdsRepeat(items, base, i, j);
    }
  }

  /** The unique-email constraint: a users batch whose upserts would leave two
      users with the same email is not committed. */
  lemma EmailClashRollsBack(s: Store, items: seq<Item>, env: Env)
    requires NormalizeAll(items, env.parse).Ok?
    requires UpsertAll(Users, s.users, NormalizeAll(items, env.parse).value, env.now).Ok?
    requires !UniqueEmails(UpsertAll(Users, s.users, NormalizeAll(items, env.parse).value, env.now).value)
    ensures !ProcessData(Users, s, items, env).status.Committed?
    ensures Distinct(NewIds(items, s.users)) ==> ProcessData(Users, s, items, env).status.RolledBack?
    ensures Distinct(NewIds(items, s.users)) && Bindable(UpsertAll(Users, s.users, NormalizeAll(items, env.parse).value, env.now).value) ==>
              ProcessData(Users, s, items, env).status == RolledBack(DuplicateEmail)
  {
    if ProcessData(Users, s, items, env).status.Committed? {
      ProcessDataIsUpsertFold(Users, s, items, env);
    }
    if Distinct(NewIds(items, s.users)) {
      var t := UpsertAll(Users, s.users, NormalizeAll(items, env.parse).value, env.now).value;
      UpsertFoldIsStageAll(Users, s.users, items, env, t);
    }
  }

  /** A batch, whatever its outcome, keeps a well-formed store well-formed. */
  lemma ProcessDataKeepsWellFormed(kind: Kind, s: Store, items: seq<Item>, env: Env)
    requires WellFormed(s)
    ensures WellFormed(ProcessData(kind, s, items, env).store)
  {
    var r := ProcessData(kind, s, items, env);
    if r.status.Committed? {
      ProcessDataIsUpsertFold(kind, s, items, env);
      assert KeyedRows(kind, TableOf(r.store, kind));
      assert TableOk(kind, TableOf(r.store, kind));
      assert HistoryRefsOk(r.store);
    }
  }
}

=== FILE: cycle.dfy ===
/** One reconciliation cycle, `fetch_all_data`: users, then tracks, then listen
    history, each skipped when its fetch came back empty. The three fetch
    results are inputs; an exception that escapes a batch ends the cycle with
    the batches before it committed. */
module Cycle {
  import opened Wrappers
  import opened Values
  import opened Models
  import opened BatchProcessor
  import opened HistoryReconciler

  /** What the three API calls of one cycle returned (an empty sequence for a
      failed or empty call). */
  datatype Fetched = Fetched(users: seq<Item>, tracks: seq<Item>, history: seq<Item>)

  /** The store after a cycle, and the exception that cut it short, if any. */
  datatype CycleResult = CycleResult(store: Store, escaped: Option<Exception>)

  /** `fetch_and_process_data(endpoint, model)` with the fetch result given:
      nothing happens for an empty result; a rolled-back batch leaves the store
      as it was and lets the cycle go on; an escaping exception is returned. */
  function FetchAndProcess(kind: Kind, s: Store, fetched: seq<Item>, env: Env): (r: Result<Store, Exception>)
    ensures |fetched| == 0 ==> r == Ok(s)
    ensures |fetched| > 0 ==> (r.Err? <==> ProcessData(kind, s, fetched, env).status.Escaped?)
    ensures |fetched| > 0 && r.Ok? ==> r.value == ProcessData(kind, s, fetched, env).store
    ensures r.Err? ==> ProcessData(kind, s, fetched, env).status == Escaped(r.error)
    ensures r.Ok? && r.value != s ==> ProcessData(kind, s, fetched, env).status.Committed?
    ensures r.Ok? ==> r.value.histories == s.histories && r.value.links == s.links
    ensures r.Ok? ==> TableOf(s, kind).Keys <= TableOf(r.value, kind).Keys
  {
    if |fetched| == 0 then Ok(s)
    else
      var b := ProcessData(kind, s, fetched, env);
      if b.status.Escaped? then Err(b.status.exception) else Ok(b.store)
  }

  /** `fetch_all_data()`. */
  function FetchAll(s: Store, f: Fetched, env: Env): (r: CycleResult)
    ensures f == Fetched([], [], []) ==> r == CycleResult(s, None)
    ensures s.histories <= r.store.histories && s.links <= r.store.links
    ensures s.users.Keys <= r.store.users.Keys && s.tracks.Keys <= r.store.tracks.Keys
  {
    match FetchAndProcess(Users, s, f.users, env)
    case Err(e) => CycleResult(s, Some(e))
    case Ok(s1) =>
      match FetchAndProcess(Tracks, s1, f.tracks, env)
      case Err(e) => CycleResult(s1, Some(e))
      case Ok(s2) =>
        if |f.history| == 0 then CycleResult(s2, None)
        else
          var b := ProcessListenHistory(s2, f.history, env);
          if b.status.Escaped? then CycleResult(s2, Some(b.status.exception))
          else CycleResult(b.store, None)
  }

  /** The listen-history batch runs after both entity batches, against the
      tables they left: an exception escaping the users batch means no track
      and no history is written in that cycle. */
  lemma UsersEscapeStopsCycle(s: Store, f: Fetched, env: Env)
    requires |f.users| > 0 && ProcessData(Users, s, f.users, env).status.Escaped?
    ensures FetchAll(s, f, env) == CycleResult(s, Some(ProcessData(Users, s, f.users, env).status.exception))
  {
  }

  /** An exception escaping the tracks batch ends the cycle with the users
      batch committed and no history written. */
  lemma TracksEscapeStopsCycle(s: Store, f: Fetched, s1: Store, env: Env)
    requires FetchAndProcess(Users, s, f.users, env) == Ok(s1)
    requires |f.tracks| > 0 && ProcessData(Tracks, s1, f.tracks, env).status.Escaped?
    ensures FetchAll(s, f, env) == CycleResult(s1, Some(ProcessData(Tracks, s1, f.tracks, env).status.exception))
  {
  }

  /** When both entity batches let the cycle go on, the listen-history batch
      runs last, against the store they left; the cycle ends cut short, with
      that batch's exception, exactly when that batch raises, and a rolled-back history batch leaves that
      store as it was. */
  lemma ThreeBatchCycle(s: Store, f: Fetched, s1: Store, s2: Store, env: Env)
    requires FetchAndProcess(Users, s, f.users, env) == Ok(s1)
    requires FetchAndProcess(Tracks, s1, f.tracks, env) == Ok(s2)
    ensures |f.history| == 0 ==> FetchAll(s, f, env) == CycleResult(s2, None)
    ensures |f.history| > 0 ==>
              && FetchAll(s, f, env).store == ProcessListenHistory(s2, f.history, env).store
              && FetchAll(s, f, env).escaped ==
                 (if ProcessListenHistory(s2, f.history, env).status.Escaped?
                  then Some(ProcessListenHistory(s2, f.history, env).status.exception) else None)
  {
  }

  /** A cycle keeps a well-formed store well-formed, whatever each batch does. */
  lemma CycleKeepsWellFormed(s: Store, f: Fetched, env: Env)
    requires WellFormed(s)
    ensures WellFormed(FetchAll(s, f, env).store)
  {
    FetchKeepsWellFormed(Users, s, f.users, env);
    var r1 := FetchAndProcess(Users, s, f.users, env);
    if r1.Ok? {
      FetchKeepsWellFormed(Tracks, r1.value, f.tracks, env);
      var r2 := FetchAndProcess(Tracks, r1.value, f.tracks, env);
      if r2.Ok? {
        ProcessListenHistoryKeepsWellFormed(r2.value, f.history, env);
      }
    }
  }

  lemma FetchKeepsWellFormed(kind: Kind, s: Store, fetched: seq<Item>, env: Env)
    requires WellFormed(s)
    ensures FetchAndProcess(kind, s, fetched, env).Ok? ==> WellFormed(FetchAndProcess(kind, s, fetched, env).value)
  {
    ProcessDataKeepsWellFormed(kind, s, fetched, env);
  }
}

=== FILE: dates.dfy ===
/** The date normaliser `convert_date_string`: strings lose every trailing `Z`
    and go through the ISO-8601 parser; anything else passes through unchanged. */
module DateNormalizer {
  import opened Wrappers
  import opened Values

  /** `s.rstrip("Z")`: the longest prefix of `s` that does not end in `Z`,
      everything after it being `Z`. */
  function RStripZ(s: string): (r: string)
    ensures r <= s
    ensures |r| == 0 || r[|r| - 1] != 'Z'
    ensures forall i :: |r| <= i < |s| ==> s[i] == 'Z'
    decreases |s|
  {
    if |s| > 0 && s[|s| - 1] == 'Z' then RStripZ(s[..|s| - 1]) else s
  }

  /** The three properties of `RStripZ` pin its result down: any prefix of `s`
      that does not end in `Z` and is followed only by `Z`s is `RStripZ(s)`. */
  lemma RStripZUnique(s: string, r: string)
    requires r <= s
    requires |r| == 0 || r[|r| - 1] != 'Z'
    requires forall i :: |r| <= i < |s| ==> s[i] == 'Z'
    ensures r == RStripZ(s)
  {
    var q := RStripZ(s);
    assert |r| == |q|;
    assert r == s[..|r|] == q;
  }

  /** Appending any number of `Z`s does not change what is stripped to: the
      normaliser treats `…Z`, `…ZZ` and `…` alike. */
  lemma {:induction false} RStripZAppendZ(s: string, n: nat)
    ensures RStripZ(s + seq(n, _ => 'Z')) == RStripZ(s)
  {
    var t := s + seq(n, _ => 'Z');
    var r := RStripZ(s);
    assert t[..|s|] == s;
    RStripZUnique(t, r);
  }

  /** Stripping is idempotent. */
  lemma RStripZIdempotent(s: string)
    ensures RStripZ(RStripZ(s)) == RStripZ(s)
  {
  }

  /** `convert_date_string(value)`: a string is stripped of trailing `Z`s and
      parsed (a parse failure is Python's ValueError); any other value, `None`
      included, is returned unchanged. */
  function ConvertDate(v: Value, parse: string -> Option<DateTime>): (r: Result<Value, Exception>)
    ensures !v.Str? ==> r == Ok(v)
    ensures v.Str? ==> (r.Ok? <==> parse(RStripZ(v.s)).Some?)
    ensures v.Str? && r.Ok? ==> r.value == Date(parse(RStripZ(v.s)).value)
    ensures v.Str? && r.Err? ==> r.error == ValueError(RStripZ(v.s))
    ensures r.Ok? ==> !r.value.Str?
  {
    if v.Str? then
      match parse(RStripZ(v.s))
      case Some(d) => Ok(Date(d))
      case None => Err(ValueError(RStripZ(v.s)))
    else
      Ok(v)
  }

  /** A string with trailing `Z`s converts exactly as the same string without
      them. */
  lemma ConvertIgnoresTrailingZ(s: string, n: nat, parse: string -> Option<DateTime>)
    ensures ConvertDate(Str(s + seq(n, _ => 'Z')), parse) == ConvertDate(Str(s), parse)
  {
    RStripZAppendZ(s, n);
  }

  /** Converting an already converted value changes nothing. */
  lemma ConvertIdempotent(v: Value, parse: string -> Option<DateTime>)
    requires ConvertDate(v, parse).Ok?
    ensures ConvertDate(ConvertDate(v, parse).value, parse) == ConvertDate(v, parse)
  {
  }
}

=== FILE: history.dfy ===
/** The listen-history reconciler `process_listen_history`: one new history per
    item whose user exists, attached to those of its listed tracks that exist;
    an item whose user is missing is skipped. One commit for the whole batch,
    with the same rollback discipline as `process_data`. */
module HistoryReconciler {
  import opened Wrappers
  import opened Values
  import opened Models
  import opened DateNormalizer
  import opened BatchProcessor

  /** Whether `session.get(model, v)` finds a row of table `t`. */
  predicate Resolves(t: Table, v: Value) {
    v.Int? && v.i in t
  }

  /** The listed track ids that resolve, in list order, repeats kept. */
  function Resolve(ids: seq<Value>, tracks: Table): (r: seq<int>)
    ensures |r| <= |ids|
    ensures forall k :: k in r <==> Int(k) in ids && k in tracks
    decreases |ids|
  {
    if |ids| == 0 then []
    else
      var last := ids[|ids| - 1];
      Resolve(ids[..|ids| - 1], tracks) + (if Resolves(tracks, last) then [last.i] else [])
  }

  /** Resolving a concatenation resolves each part in turn: the tracks keep
      the order in which they are listed. */
  lemma {:induction false} ResolveAppend(a: seq<Value>, b: seq<Value>, tracks: Table)
    ensures Resolve(a + b, tracks) == Resolve(a, tracks) + Resolve(b, tracks)
    decreases |b|
  {
    if |b| == 0 {
      assert a + b == a;
    } else {
      var b' := b[..|b| - 1];
      assert (a + b)[..|a + b| - 1] == a + b';
      assert (a + b)[|a + b| - 1] == b[|b| - 1];
      ResolveAppend(a, b', tracks);
    }
  }

  /** One listed id gives its track if it exists and nothing otherwise; so a
      track listed twice is attached twice. */
  lemma ResolveOne(v: Value, tracks: Table)
    ensures Resolve([v], tracks) == (if Resolves(tracks, v) then [v.i] else [])
  {
    assert [v][..0] == [];
  }

  /** A history's audit column as inserted: None is left out of the INSERT, so
      the column default (the ingestion time) fires. */
  function Stamp(v: Value, now: DateTime): (r: Value)
    ensures v != Null ==> r == v
    ensures v == Null ==> r == Date(now)
    ensures r != Null
  {
    if v == Null then Date(now) else v
  }

  /** `s'` is `s` with exactly one history appended — store-assigned id,
      owned by user `uid` — and one association row per track of `ts`. */
  predicate AddsHistory(s: Store, s': Store, uid: int, ts: seq<int>) {
    && s'.users == s.users && s'.tracks == s.tracks
    && |s'.histories| == |s.histories| + 1
    && s'.histories[..|s.histories|] == s.histories
    && s'.histories[|s.histories|].id == FreshId(s.histories)
    && s'.histories[|s.histories|].userId == uid
    && s'.links == s.links + LinksFor(FreshId(s.histories), ts)
  }

  /** Whether the loop body raises on `item`: it has no `user_id`, or its
      user exists and a date does not parse or `items` is missing or not a
      list. */
  predicate Raises(users: Table, item: Item, parse: string -> Option<DateTime>) {
    || "user_id" !in item
    || (&& Resolves(users, item["user_id"])
        && (|| ConvertDate(Get(item, "created_at"), parse).Err?
            || ConvertDate(Get(item, "updated_at"), parse).Err?
            || "items" !in item
            || !item["items"].List?))
  }

  /** One pass of the loop body of `process_listen_history`. */
  function ReconcileItem(s: Store, item: Item, env: Env): (r: Result<Store, Exception>)
    ensures "user_id" !in item ==> r == Err(KeyError("user_id"))
    ensures "user_id" in item && !Resolves(s.users, item["user_id"]) ==> r == Ok(s)
    ensures r.Ok? ==> r.value.users == s.users && r.value.tracks == s.tracks
    ensures r.Ok? && Resolves(s.users, item["user_id"]) ==>
              "items" in item && item["items"].List? &&
              AddsHistory(s, r.value, item["user_id"].i, Resolve(item["items"].elems, s.tracks))
    ensures "user_id" in item && Resolves(s.users, item["user_id"]) ==>
              (r.Ok? <==> && ConvertDate(Get(item, "created_at"), env.parse).Ok?
                          && ConvertDate(Get(item, "updated_at"), env.parse).Ok?
                          && "items" in item && item["items"].List?)
    ensures r.Ok? && "user_id" in item && Resolves(s.users, item["user_id"]) ==>
              && r.value.histories[|s.histories|].createdAt == Stamp(ConvertDate(Get(item, "created_at"), env.parse).value, env.now)
              && r.value.histories[|s.histories|].updatedAt == Stamp(ConvertDate(Get(item, "updated_at"), env.parse).value, env.now)
    ensures r.Err? ==> r.error.ValueError? || r.error.TypeError? || r.error == KeyError("user_id") || r.error == KeyError("items")
    ensures r.Err? <==> Raises(s.users, item, env.parse)
  {
    if "user_id" !in item then Err(KeyError("user_id"))
    else if !Resolves(s.users, item["user_id"]) then Ok(s)
    else
      var created :- ConvertDate(Get(item, "created_at"), env.parse);
      var updated :- ConvertDate(Get(item, "updated_at"), env.parse);
      if "items" !in item then Err(KeyError("items"))
      else if !item["items"].List? then Err(TypeError("track ids are not iterable"))
      else
        var h := History(FreshId(s.histories), item["user_id"].i, Stamp(created, env.now), Stamp(updated, env.now));
        var ts := Resolve(item["items"].elems, s.tracks);
        Ok(s.(histories := s.histories + [h], links := s.links + LinksFor(h.id, ts)))
  }

  /** The number of items whose user resolves: the histories a batch adds. */
  function Attached(users: Table, items: seq<Item>): (n: nat)
    ensures n <= |items|
    ensures n == |items| <==> forall i :: 0 <= i < |items| ==> Resolves(users, Get(items[i], "user_id"))
    ensures n == 0 <==> forall i :: 0 <= i < |items| ==> !Resolves(users, Get(items[i], "user_id"))
    decreases |items|
  {
    if |items| == 0 then 0
    else
      assert forall i :: 0 <= i < |items| - 1 ==> items[..|items| - 1][i] == items[i];
      Attached(users, items[..|items| - 1]) + (if Resolves(users, Get(items[|items| - 1], "user_id")) then 1 else 0)
  }

  /** The loop of `process_listen_history` up to the commit. */
  function ReconcileAll(s: Store, items: seq<Item>, env: Env): (r: Result<Store, Exception>)
    ensures r.Ok? ==> r.value.users == s.users && r.value.tracks == s.tracks
    ensures r.Ok? ==> s.histories <= r.value.histories && s.links <= r.value.links
    ensures r.Ok? ==> |r.value.histories| == |s.histories| + Attached(s.users, items)
    ensures r.Err? ==> r.error.ValueError? || r.error.TypeError? || r.error == KeyError("user_id") || r.error == KeyError("items")
    ensures r.Ok? <==> forall i :: 0 <= i < |items| ==> !Raises(s.users, items[i], env.parse)
    decreases |items|
  {
    if |items| == 0 then Ok(s)
    else
      assert forall i :: 0 <= i < |items| - 1 ==> items[..|items| - 1][i] == items[i];
      var s' :- ReconcileAll(s, items[..|items| - 1], env);
      var r := ReconcileItem(s', items[|items| - 1], env);
      assert r.Ok? && Resolves(s'.users, items[|items| - 1]["user_id"]) ==> r.value.histories[..|s'.histories|] == s'.histories;
      r
  }

  /** Both audit columns of every history `s'` holds beyond those of `s` bind
      to their timestamp columns. */
  predicate NewStamped(s: Store, s': Store) {
    forall i :: |s.histories| <= i < |s'.histories| ==> Stamped(s'.histories[i])
  }

  /** `process_listen_history(items)`. Users and tracks are never written;
      unless the batch commits the store is returned as it was; a commit adds
      one history per item whose user exists and only appends. The batch
      commits exactly when the loop finishes and every new history's audit
      columns bind; an exception from the loop escapes. */
  function ProcessListenHistory(s: Store, items: seq<Item>, env: Env): (r: BatchResult)
    ensures r.store.users == s.users && r.store.tracks == s.tracks
    ensures !r.status.Committed? ==> r.store == s
    ensures r.status.Committed? ==> r.status.count == |items|
    ensures r.status.Committed? ==> s.histories <= r.store.histories && s.links <= r.store.links
    ensures r.status.Committed? ==> |r.store.histories| == |s.histories| + Attached(s.users, items)
    ensures r.status.Committed? ==> NewStamped(s, r.store)
    ensures r.status.Committed? <==> ReconcileAll(s, items, env).Ok? && NewStamped(s, ReconcileAll(s, items, env).value)
    ensures r.status.Committed? ==> r.store == ReconcileAll(s, items, env).value
    ensures r.status.Escaped? <==> ReconcileAll(s, items, env).Err?
    ensures r.status.Escaped? ==> r.status.exception == ReconcileAll(s, items, env).error
    ensures r.status.RolledBack? ==> r.status.violation == UnbindableValue
  {
    match ReconcileAll(s, items, env)
    case Err(e) => BatchResult(s, Escaped(e))
    case Ok(s') =>
      if NewStamped(s, s') then BatchResult(s', Committed(|items|))
      else BatchResult(s, RolledBack(UnbindableValue))
  }

  /** An audit value the loop accepts and the timestamp column binds: NULL
      (the column default fires), a parsed timestamp, or a string the parser
      reads once trailing `Z`s are stripped. */
  predicate AuditOk(v: Value, parse: string -> Option<DateTime>) {
    v.Null? || v.Date? || (v.Str? && parse(RStripZ(v.s)).Some?)
  }

  /** An item the loop gets through without an exception and whose history,
      if any, binds: it names a user, and when that user exists it lists its
      tracks and carries acceptable audit values. */
  predicate Reconcilable(users: Table, item: Item, parse: string -> Option<DateTime>) {
    && "user_id" in item
    && (Resolves(users, item["user_id"]) ==>
          && "items" in item && item["items"].List?
          && AuditOk(Get(item, "created_at"), parse) && AuditOk(Get(item, "updated_at"), parse))
  }

  lemma ReconcileItemStamped(s: Store, item: Item, env: Env)
    requires Reconcilable(s.users, item, env.parse)
    ensures ReconcileItem(s, item, env).Ok?
    ensures NewStamped(s, ReconcileItem(s, item, env).value)
  {
  }

  lemma {:induction false} ReconcileAllStamped(s: Store, items: seq<Item>, env: Env)
    requires forall i :: 0 <= i < |items| ==> Reconcilable(s.users, items[i], env.parse)
    ensures ReconcileAll(s, items, env).Ok?
    ensures NewStamped(s, ReconcileAll(s, items, env).value)
    decreases |items|
  {
    if |items| > 0 {
      var prefix, last := items[..|items| - 1], items[|items| - 1];
      assert forall i :: 0 <= i < |prefix| ==> prefix[i] == items[i];
      ReconcileAllStamped(s, prefix, env);
      var s' := ReconcileAll(s, prefix, env).value;
      ReconcileItemStamped(s', last, env);
      var r := ReconcileItem(s', last, env).value;
      assert r.histories[..|s'.histories|] == s'.histories;
      forall i | |s.histories| <= i < |r.histories| ensures Stamped(r.histories[i]) {
        if i < |s'.histories| {
          assert r.histories[i] == s'.histories[i];
        }
      }
    }
  }

  /** A listen-history batch commits whenever every item names a user and
      every item whose user exists lists its tracks and carries audit values
      that are NULL, timestamps or parseable strings; unknown users and
      unknown tracks never stop it. */
  lemma ListenBatchCommits(s: Store, items: seq<Item>, env: Env)
    requires forall i :: 0 <= i < |items| ==> Reconcilable(s.users, items[i], env.parse)
    ensures ReconcileAll(s, items, env).Ok?
    ensures ProcessListenHistory(s, items, env) == BatchResult(ReconcileAll(s, items, env).value, Committed(|items|))
  {
    ReconcileAllStamped(s, items, env);
  }

  /** The history created for an item whose user exists gets an id no history
      had, and reading its tracks back from the association gives exactly the
      listed ids that resolve, in list order: unknown tracks are dropped, the
      history is kept. */
  lemma NewHistoryTracks(s: Store, item: Item, env: Env)
    requires HistoryRefsOk(s)
    requires "user_id" in item && Resolves(s.users, item["user_id"])
    requires ReconcileItem(s, item, env).Ok?
    ensures var s' := ReconcileItem(s, item, env).value;
            var h := s'.histories[|s.histories|];
            && h.id !in HistoryIds(s.histories)
            && h.userId == item["user_id"].i
            && TracksOf(s'.links, h.id) == Resolve(item["items"].elems, s.tracks)
  {
    var s' := ReconcileItem(s, item, env).value;
    var hid := FreshId(s.histories);
    var ts := Resolve(item["items"].elems, s.tracks);
    forall i | 0 <= i < |s.links| ensures s.links[i].historyId != hid {
      var j :| 0 <= j < |s.histories| && s.histories[j].id == s.links[i].historyId;
    }
    TracksOfUnnamed(s.links, hid);
    TracksOfAppend(s.links, LinksFor(hid, ts), hid);
    TracksOfLinksFor(hid, ts);
  }

  /** A history's id is assigned by the store: an `id` field in the item, of
      whatever value, changes nothing. */
  lemma ReconcileIgnoresItemId(s: Store, item: Item, v: Value, env: Env)
    ensures ReconcileItem(s, item["id" := v], env) == ReconcileItem(s, item, env)
  {
    var item' := item["id" := v];
    assert Get(item', "created_at") == Get(item, "created_at");
    assert Get(item', "updated_at") == Get(item, "updated_at");
    assert ("user_id" in item') == ("user_id" in item) && ("items" in item') == ("items" in item);
    if "user_id" in item {
      assert item'["user_id"] == item["user_id"];
    }
    if "items" in item {
      assert item'["items"] == item["items"];
    }
  }

  /** One reconciled item keeps the references of the store intact. */
  lemma ReconcileItemKeepsRefs(s: Store, item: Item, env: Env)
    requires HistoryRefsOk(s)
    requires ReconcileItem(s, item, env).Ok?
    ensures HistoryRefsOk(ReconcileItem(s, item, env).value)
  {
    var s' := ReconcileItem(s, item, env).value;
    if "user_id" in item && Resolves(s.users, item["user_id"]) {
      var n := |s.histories|;
      var hid := FreshId(s.histories);
      var ts := Resolve(item["items"].elems, s.tracks);
      assert s'.histories == s.histories + [s'.histories[n]];
      assert hid in HistoryIds(s'.histories) by {
        assert s'.histories[n].id == hid;
      }
      assert HistoryIds(s.histories) <= HistoryIds(s'.histories) by {
        forall x | x in HistoryIds(s.histories) ensures x in HistoryIds(s'.histories) {
          var j :| 0 <= j < n && s.histories[j].id == x;
          assert s'.histories[j] == s.histories[j];
        }
      }
      forall i | 0 <= i < |s'.links| ensures s'.links[i].trackId in s'.tracks && s'.links[i].historyId in HistoryIds(s'.histories) {
        if i >= |s.links| {
          var t := ts[i - |s.links|];
          assert s'.links[i] == Link(hid, t);
          assert t in ts;
        } else {
          assert s'.links[i] == s.links[i];
        }
      }
    }
  }

  lemma {:induction false} ReconcileAllKeepsRefs(s: Store, items: seq<Item>, env: Env)
    requires HistoryRefsOk(s)
    requires ReconcileAll(s, items, env).Ok?
    ensures HistoryRefsOk(ReconcileAll(s, items, env).value)
    decreases |items|
  {
    if |items| > 0 {
      ReconcileAllKeepsRefs(s, items[..|items| - 1], env);
      ReconcileItemKeepsRefs(ReconcileAll(s, items[..|items| - 1], env).value, items[|items| - 1], env);
    }
  }

  /** A one-item batch is one pass of the loop body. */
  lemma ReconcileAllOne(s: Store, x: Item, env: Env)
    ensures ReconcileAll(s, [x], env) == ReconcileItem(s, x, env)
  {
    assert [x][..0] == [];
  }

  /** Reconciling a concatenation reconciles each part in turn: every item is
      reconciled against the store the items before it left, and the first
      exception ends the loop. */
  lemma {:induction false} ReconcileAllAppend(s: Store, a: seq<Item>, b: seq<Item>, env: Env)
    ensures ReconcileAll(s, a + b, env) ==
            (match ReconcileAll(s, a, env)
             case Ok(s') => ReconcileAll(s', b, env)
             case Err(e) => Err(e))
    decreases |b|
  {
    if |b| == 0 {
      assert a + b == a;
    } else {
      var b' := b[..|b| - 1];
      assert (a + b)[..|a + b| - 1] == a + b';
      assert (a + b)[|a + b| - 1] == b[|b| - 1];
      ReconcileAllAppend(s, a, b', env);
    }
  }

  /** Later items never touch the association rows of a history already
      stored: each adds rows only for its own fresh id. */
  lemma {:induction false} ReconcileAllKeepsTracks(s: Store, items: seq<Item>, env: Env, h: int)
    requires h in HistoryIds(s.histories)
    requires ReconcileAll(s, items, env).Ok?
    ensures TracksOf(ReconcileAll(s, items, env).value.links, h) == TracksOf(s.links, h)
    decreases |items|
  {
    if |items| > 0 {
      var prefix, last := items[..|items| - 1], items[|items| - 1];
      ReconcileAllKeepsTracks(s, prefix, env, h);
      var p := ReconcileAll(s, prefix, env).value;
      var q := ReconcileItem(p, last, env).value;
      if "user_id" in last && Resolves(p.users, last["user_id"]) {
        var hid := FreshId(p.histories);
        var ts := Resolve(last["items"].elems, p.tracks);
        assert h in HistoryIds(p.histories) by {
          var j :| 0 <= j < |s.histories| && s.histories[j].id == h;
          assert p.histories[j] == s.histories[j];
        }
        assert hid != h;
        TracksOfAppend(p.links, LinksFor(hid, ts), h);
        TracksOfUnnamed(LinksFor(hid, ts), h);
      }
    }
  }

  /** The history the loop creates for the `i`-th item, when its user
      exists: it sits right after the histories of the items before it, is
      owned by that user, and its tracks read back from the final association
      table are exactly the item's listed ids that resolve, in list order. */
  lemma ReconcileAllItem(s: Store, items: seq<Item>, env: Env, i: int)
    requires HistoryRefsOk(s)
    requires 0 <= i < |items| && "user_id" in items[i] && Resolves(s.users, items[i]["user_id"])
    requires ReconcileAll(s, items, env).Ok?
    ensures ReconcileAll(s, items[..i], env).Ok?
    ensures var n := |ReconcileAll(s, items[..i], env).value.histories|;
            var f := ReconcileAll(s, items, env).value;
            && n < |f.histories|
            && f.histories[n].userId == items[i]["user_id"].i
            && "items" in items[i] && items[i]["items"].List?
            && TracksOf(f.links, f.histories[n].id) == Resolve(items[i]["items"].elems, s.tracks)
  {
    ReconcileAllSplit(s, items, env, i);
    var p := ReconcileAll(s, items[..i], env).value;
    var q := ReconcileItem(p, items[i], env).value;
    ReconcileAllKeepsRefs(s, items[..i], env);
    NewHistoryTracks(p, items[i], env);
    var hid := q.histories[|p.histories|].id;
    assert hid in HistoryIds(q.histories);
    ReconcileAllKeepsTracks(q, items[i + 1..], env, hid);
  }

  /** So a committed listen-history batch stores, for each item whose user
      exists, a history of that user holding exactly the item's resolving
      track ids, in the order of the items. */
  lemma CommittedHistoryOfItem(s: Store, items: seq<Item>, env: Env, i: int)
    requires HistoryRefsOk(s)
    requires 0 <= i < |items| && "user_id" in items[i] && Resolves(s.users, items[i]["user_id"])
    requires ProcessListenHistory(s, items, env).status.Committed?
    ensures ReconcileAll(s, items[..i], env).Ok?
    ensures var n := |ReconcileAll(s, items[..i], env).value.histories|;
            var f := ProcessListenHistory(s, items, env).store;
            && |s.histories| + Attached(s.users, items[..i]) == n < |f.histories|
            && f.histories[n].userId == items[i]["user_id"].i
            && "items" in items[i] && items[i]["items"].List?
            && TracksOf(f.links, f.histories[n].id) == Resolve(items[i]["items"].elems, s.tracks)
  {
    ReconcileAllItem(s, items, env, i);
  }

  /** A finished loop, cut at item `i`: the items before it, then item `i`,
      then the rest. */
  lemma ReconcileAllSplit(s: Store, items: seq<Item>, env: Env, i: int)
    requires 0 <= i < |items| && ReconcileAll(s, items, env).Ok?
    ensures ReconcileAll(s, items[..i], env).Ok?
    ensures ReconcileItem(ReconcileAll(s, items[..i], env).value, items[i], env).Ok?
    ensures ReconcileAll(ReconcileItem(ReconcileAll(s, items[..i], env).value, items[i], env).value, items[i + 1..], env) ==
            ReconcileAll(s, items, env)
  {
    var rest := items[i + 1..];
    assert items == items[..i] + ([items[i]] + rest);
    ReconcileAllAppend(s, items[..i], [items[i]] + rest, env);
    var p := ReconcileAll(s, items[..i], env).value;
    ReconcileAllAppend(p, [items[i]], rest, env);
    ReconcileAllOne(p, items[i], env);
  }

  /** A listen-history batch, whatever its outcome, keeps a well-formed store
      well-formed: every history names an existing user, every association row
      an existing history and track. */
  lemma ProcessListenHistoryKeepsWellFormed(s: Store, items: seq<Item>, env: Env)
    requires WellFormed(s)
    ensures WellFormed(ProcessListenHistory(s, items, env).store)
  {
    var r := ProcessListenHistory(s, items, env);
    if r.status.Committed? {
      ReconcileAllKeepsRefs(s, items, env);
      forall i | 0 <= i < |r.store.histories| ensures Stamped(r.store.histories[i]) {
        if i < |s.histories| {
          assert r.store.histories[i] == s.histories[i];
        }
      }
    }
  }
}

=== FILE: models.dfy ===
/** The relational store the pipeline writes to, as pure data: the `users` and
    `tracks` tables keyed by their externally supplied integer `id`, the
    `listen_history` table with store-assigned ids, and the
    `listen_history_tracks` association. Also the constraints whose violation
    the database reports as a storage error. */
module Models {
  import opened Wrappers
  import opened Values

  /** The two entity tables reconciled by upsert. */
  datatype Kind = Users | Tracks

  /** A stored row: column name to value. A column without an entry reads as NULL. */
  type Row = map<string, Value>

  /** A table keyed by the integer primary key `id`. */
  type Table = map<int, Row>

  /** The two audit columns every table carries. */
  const Timestamps: set<string> := {"created_at", "updated_at"}

  /** The mapped columns of each entity. */
  function Columns(kind: Kind): (cs: set<string>)
    ensures "id" in cs && Timestamps <= cs
    ensures kind == Users <==> "email" in cs
  {
    match kind
    case Users => {"id", "first_name", "last_name", "email", "gender", "favorite_genres", "created_at", "updated_at"}
    case Tracks => {"id", "name", "artist", "songwriters", "duration", "genres", "album", "created_at", "updated_at"}
  }

  /** The column types of both entity tables. */
  datatype SqlType = Integer | Text | Timestamp

  function SqlTypeOf(column: string): SqlType {
    if column == "id" then Integer
    else if column in Timestamps then Timestamp
    else Text
  }

  /** Whether the database driver accepts `v` for a column of type `ty`: a JSON
      array binds to no column, and a timestamp column takes only a parsed
      timestamp or NULL. */
  predicate Binds(ty: SqlType, v: Value) {
    match ty
    case Integer => v.Null? || v.Int?
    case Text => !v.List?
    case Timestamp => v.Null? || v.Date?
  }

  /** Every value of the table binds to its column. */
  predicate Bindable(t: Table) {
    forall k, c :: k in t && c in t[k] ==> Binds(SqlTypeOf(c), t[k][c])
  }

  /** The `unique=True` constraint on `users.email`: two distinct rows never
      share a non-NULL email. */
  predicate UniqueEmails(t: Table) {
    forall a, b :: a in t && b in t && a != b && Get(t[a], "email") != Null ==> Get(t[a], "email") != Get(t[b], "email")
  }

  /** The same constraint as the flush meets it: the index is checked row by
      row, and the UPDATEs of stored rows run in ascending id order before
      any INSERT. A stored user whose email changes in `t` must not take an
      email that a stored user with a larger id held in `base`, which is what
      that user still holds when the earlier row is written. */
  predicate EmailsFreeInFlushOrder(base: Table, t: Table) {
    forall a, b ::
      a in base && b in base && a < b && a in t && Get(t[a], "email") != Null && Get(t[a], "email") != Get(base[a], "email")
      ==> Get(base[b], "email") != Get(t[a], "email")
  }

  /** Every row holds only mapped columns, and its `id` column equals its key. */
  predicate KeyedRows(kind: Kind, t: Table) {
    forall k :: k in t ==> t[k].Keys <= Columns(kind) && "id" in t[k] && t[k]["id"] == Int(k)
  }

  /** All constraints of one entity table. */
  predicate TableOk(kind: Kind, t: Table) {
    KeyedRows(kind, t) && Bindable(t) && (kind == Users ==> UniqueEmails(t))
  }

  /** One `listen_history` row: a store-assigned id, exactly one user, and the
      two audit columns. */
  datatype History = History(id: int, userId: int, createdAt: Value, updatedAt: Value)

  /** One `listen_history_tracks` row: a bare pair with no identity of its own. */
  datatype Link = Link(historyId: int, trackId: int)

  datatype Store = Store(users: Table, tracks: Table, histories: seq<History>, links: seq<Link>)

  function TableOf(s: Store, kind: Kind): Table {
    match kind
    case Users => s.users
    case Tracks => s.tracks
  }

  function WithTable(s: Store, kind: Kind, t: Table): (r: Store)
    ensures TableOf(r, kind) == t
    ensures kind == Users ==> r.tracks == s.tracks
    ensures kind == Tracks ==> r.users == s.users
    ensures r.histories == s.histories && r.links == s.links
  {
    match kind
    case Users => s.(users := t)
    case Tracks => s.(tracks := t)
  }

  function HistoryIds(hs: seq<History>): set<int> {
    set i | 0 <= i < |hs| :: hs[i].id
  }

  /** The id the store assigns to the next history row: one more than the
      largest id in use, or 1 for an empty table (SQLite's rowid rule). */
  function FreshId(hs: seq<History>): (r: int)
    ensures forall i :: 0 <= i < |hs| ==> hs[i].id < r
    ensures |hs| == 0 ==> r == 1
    ensures |hs| > 0 ==> r - 1 in HistoryIds(hs)
    decreases |hs|
  {
    if |hs| == 0 then 1
    else if |hs| == 1 then hs[0].id + 1
    else
      var r := FreshId(hs[..|hs| - 1]);
      var last := hs[|hs| - 1].id + 1;
      if last > r then last else r
  }

  /** The association rows that attach tracks `ts`, in order, to history `h`. */
  function LinksFor(h: int, ts: seq<int>): (r: seq<Link>)
    ensures |r| == |ts|
    ensures forall i :: 0 <= i < |ts| ==> r[i] == Link(h, ts[i])
  {
    seq(|ts|, i requires 0 <= i < |ts| => Link(h, ts[i]))
  }

  /** The tracks of history `h`, read off the association in row order. */
  function TracksOf(links: seq<Link>, h: int): (r: seq<int>)
    ensures |r| <= |links|
    ensures forall k :: k in r <==> Link(h, k) in links
    decreases |links|
  {
    if |links| == 0 then []
    else
      var last := links[|links| - 1];
      TracksOf(links[..|links| - 1], h) + (if last.historyId == h then [last.trackId] else [])
  }

  lemma {:induction false} TracksOfAppend(a: seq<Link>, b: seq<Link>, h: int)
    ensures TracksOf(a + b, h) == TracksOf(a, h) + TracksOf(b, h)
    decreases |b|
  {
    if |b| > 0 {
      var b' := b[..|b| - 1];
      assert (a + b)[..|a + b| - 1] == a + b';
      TracksOfAppend(a, b', h);
    } else {
      assert a + b == a;
    }
  }

  /** Reading back the rows written for `h` gives exactly the tracks attached. */
  lemma {:induction false} TracksOfLinksFor(h: int, ts: seq<int>)
    ensures TracksOf(LinksFor(h, ts), h) == ts
    decreases |ts|
  {
    if |ts| > 0 {
      var ts' := ts[..|ts| - 1];
      assert LinksFor(h, ts)[..|ts| - 1] == LinksFor(h, ts');
      TracksOfLinksFor(h, ts');
    }
  }

  /** A history that no association row names has no tracks. */
  lemma {:induction false} TracksOfUnnamed(links: seq<Link>, h: int)
    requires forall i :: 0 <= i < |links| ==> links[i].historyId != h
    ensures TracksOf(links, h) == []
    decreases |links|
  {
    if |links| > 0 {
      TracksOfUnnamed(links[..|links| - 1], h);
    }
  }

  /** History ids strictly increase along the table. */
  predicate HistoriesOrdered(hs: seq<History>) {
    forall i, j :: 0 <= i < j < |hs| ==> hs[i].id < hs[j].id
  }

  /** Both audit columns of a history row bind to their timestamp columns. */
  predicate Stamped(h: History) {
    Binds(Timestamp, h.createdAt) && Binds(Timestamp, h.updatedAt)
  }

  /** Referential integrity of the history side: every history names an
      existing user, every association row an existing history and track. */
  predicate HistoryRefsOk(s: Store) {
    && HistoriesOrdered(s.histories)
    && (forall i :: 0 <= i < |s.histories| ==> s.histories[i].userId in s.users)
    && (forall i :: 0 <= i < |s.links| ==> s.links[i].trackId in s.tracks && s.links[i].historyId in HistoryIds(s.histories))
  }

  /** The invariant the pipeline keeps the store in: the entity-table
      constraints the database checks at commit, the history references the
      reconciler itself preserves (SQLite leaves foreign keys unchecked by
      default), and bindable audit columns on every history. */
  predicate WellFormed(s: Store) {
    && TableOk(Users, s.users)
    && TableOk(Tracks, s.tracks)
    && HistoryRefsOk(s)
    && (forall i :: 0 <= i < |s.histories| ==> Stamped(s.histories[i]))
  }

  /** Why the database refuses a commit (SQLAlchemyError): the batch is rolled back. */
  datatype Violation =
    | MalformedKey      // an `id` that is not an integer
    | DuplicateKey      // two inserted rows with the same primary key
    | UnbindableValue   // a value no column of that type accepts
    | DuplicateEmail    // two users with the same non-NULL email

  /** Either a storage error (caught, batch rolled back, cycle continues) or
      any other exception (propagates out of the batch and the cycle). */
  datatype Fault = Storage(violation: Violation) | Raised(exception: Exception)
}

=== FILE: scenarios.dfy ===
/** Worked examples of the model, each proved as a lemma. */
module Scenarios {
  import opened Wrappers
  import opened Values
  import opened DateNormalizer
  import opened Models
  import opened BatchProcessor
  import opened HistoryReconciler
  import opened Cycle
  import opened UpsertEngine

  const Empty: Store := Store(map[], map[], [], [])

  /** An item without audit fields normalises to itself with both set to NULL. */
  lemma NoStampsNormalize(x: Item, parse: string -> Option<DateTime>)
    requires x.Keys !! Timestamps
    ensures Normalize(x, parse) == Ok(Cleared(x))
  {
    assert Get(x, "created_at") == Null && Get(x, "updated_at") == Null;
  }

  /** `x` with both audit fields set to NULL. */
  function Cleared(x: Item): Item {
    x["created_at" := Null]["updated_at" := Null]
  }

  /** A one-item batch whose item stages without breaking a constraint commits
      exactly the staged table. */
  lemma OneItemCommits(kind: Kind, s: Store, x: Item, env: Env, st: Staged)
    requires x.Keys !! Timestamps
    requires Stage(kind, TableOf(s, kind), Staged(TableOf(s, kind), [], false), Cleared(x), env.now) == Ok(st)
    requires Violated(kind, TableOf(s, kind), st) == None
    ensures ProcessData(kind, s, [x], env) == BatchResult(WithTable(s, kind, st.table), Committed(1))
  {
    NoStampsNormalize(x, env.parse);
    assert [x][..0] == [];
    assert StageAll(kind, TableOf(s, kind), [x], env) == Ok(st);
  }

  /** Staging a first item that inserts the new row `k`. */
  lemma StageInsertFirst(kind: Kind, base: Table, x: Item, k: int, now: DateTime)
    requires "id" in x && x["id"] == Int(k) && k !in base && x.Keys <= Columns(kind)
    ensures Stage(kind, base, Staged(base, [], false), x, now) == Ok(Staged(base[k := InsertRow(x, now)], [k], false))
  {
    assert [] + [k] == [k];
  }

  /** Staging a first item that patches the stored row `k`. */
  lemma StagePatchFirst(kind: Kind, base: Table, x: Item, k: int, now: DateTime)
    requires "id" in x && x["id"] == Int(k) && k in base
    ensures Stage(kind, base, Staged(base, [], false), x, now) == Ok(Staged(base[k := Patch(kind, base[k], x)], [], false))
  {
  }

  /** Every value of `row` binds to its column. */
  predicate RowBinds(row: Row) {
    forall c :: c in row ==> Binds(SqlTypeOf(c), row[c])
  }

  lemma BindableUpdate(t: Table, k: int, row: Row)
    requires Bindable(t) && RowBinds(row)
    ensures Bindable(t[k := row])
  {
  }

  /** A text-only item without audit fields, as inserted and as patched. */
  predicate PlainItem(x: Item, k: int) {
    && "id" in x && x["id"] == Int(k) && x.Keys !! Timestamps
    && forall c :: c in x && c != "id" ==> x[c].Str?
  }

  lemma PlainInsertRow(x: Item, k: int, now: DateTime)
    requires PlainItem(x, k)
    ensures InsertRow(Cleared(x), now) == x["created_at" := Date(now)]["updated_at" := Date(now)]
    ensures RowBinds(InsertRow(Cleared(x), now))
    ensures Get(x, "email") == Null ==> Get(InsertRow(Cleared(x), now), "email") == Null
  {
  }

  lemma PlainPatchRow(row: Row, x: Item, k: int)
    requires PlainItem(x, k) && x.Keys <= Columns(Tracks) && RowBinds(row)
    ensures var r := Patch(Tracks, row, Cleared(x));
            && (forall c :: c in x ==> Get(r, c) == x[c])
            && (forall c :: c !in x && c !in Timestamps ==> Get(r, c) == Get(row, c))
  {
  }

  lemma PlainPatchBinds(row: Row, x: Item, k: int)
    requires PlainItem(x, k) && RowBinds(row)
    ensures RowBinds(Patch(Tracks, row, Cleared(x)))
  {
    var r := Patch(Tracks, row, Cleared(x));
    forall c | c in r ensures Binds(SqlTypeOf(c), r[c]) {
      if c in Cleared(x) && c in Columns(Tracks) {
        assert r[c] == Cleared(x)[c];
      }
    }
  }

  /** A one-item batch inserting a row with an integer id, text columns only
      and no timestamps commits, the row holding the item's fields and the
      ingestion time in both audit columns. */
  lemma PlainInsertCommits(kind: Kind, s: Store, x: Item, k: int, env: Env)
    requires k !in TableOf(s, kind) && Bindable(TableOf(s, kind))
    requires kind == Users ==> UniqueEmails(s.users) && "email" !in x
    requires PlainItem(x, k) && x.Keys <= Columns(kind)
    ensures ProcessData(kind, s, [x], env).status.Committed?
    ensures TableOf(ProcessData(kind, s, [x], env).store, kind) ==
            TableOf(s, kind)[k := x["created_at" := Date(env.now)]["updated_at" := Date(env.now)]]
  {
    var base := TableOf(s, kind);
    StageInsertFirst(kind, base, Cleared(x), k, env.now);
    var row := InsertRow(Cleared(x), env.now);
    PlainInsertRow(x, k, env.now);
    BindableUpdate(base, k, row);
    var st := Staged(base[k := row], [k], false);
    if kind == Users {
      assert UniqueEmails(st.table);
      assert EmailsFreeInFlushOrder(base, st.table);
    }
    OneItemCommits(kind, s, x, env, st);
  }

  /** A one-item tracks batch patching a stored row with text columns and no
      timestamps commits; the audit columns are written as NULL. */
  lemma PlainTrackPatchCommits(s: Store, x: Item, k: int, env: Env)
    requires k in s.tracks && Bindable(s.tracks)
    requires PlainItem(x, k) && x.Keys <= Columns(Tracks)
    ensures ProcessData(Tracks, s, [x], env).status.Committed?
    ensures var t := ProcessData(Tracks, s, [x], env).store.tracks;
            && k in t
            && (forall c :: c in x ==> Get(t[k], c) == x[c])
            && (forall c :: c !in x && c !in Timestamps ==> Get(t[k], c) == Get(s.tracks[k], c))
  {
    var base := s.tracks;
    StagePatchFirst(Tracks, base, Cleared(x), k, env.now);
    var row := Patch(Tracks, base[k], Cleared(x));
    assert RowBinds(base[k]);
    PlainPatchRow(base[k], x, k);
    PlainPatchBinds(base[k], x, k);
    BindableUpdate(base, k, row);
    OneItemCommits(Tracks, s, x, env, Staged(base[k := row], [], false));
  }

  const SongA: Item := map["id" := Int(7), "name" := Str("Song A")]
  const Rock: Item := map["id" := Int(7), "genres" := Str("rock")]

  /** Track 7 as stored after its first sync at ingestion time `now`. */
  function SongARow(now: DateTime): Row {
    SongA["created_at" := Date(now)]["updated_at" := Date(now)]
  }

  /** The first sync of `{"id": 7, "name": "Song A"}` inserts track 7. */
  lemma SongAInserted(env: Env)
    ensures ProcessData(Tracks, Empty, [SongA], env) == BatchResult(Empty.(tracks := map[7 := SongARow(env.now)]), Committed(1))
  {
    PlainInsertCommits(Tracks, Empty, SongA, 7, env);
  }

  /** A later batch `{"id": 7, "genres": "rock"}` keeps the name of track 7
      and adds the genre. */
  lemma SongAPatched(env: Env)
    ensures var b2 := ProcessData(Tracks, Empty.(tracks := map[7 := SongARow(env.now)]), [Rock], env);
            && b2.status.Committed?
            && 7 in b2.store.tracks
            && Get(b2.store.tracks[7], "name") == Str("Song A")
            && Get(b2.store.tracks[7], "genres") == Str("rock")
  {
    SongAFacts(env.now);
    var s1 := Empty.(tracks := map[7 := SongARow(env.now)]);
    PlainTrackPatchCommits(s1, Rock, 7, env);
  }

  lemma SongAFacts(now: DateTime)
    ensures Bindable(map[7 := SongARow(now)])
    ensures Get(SongARow(now), "name") == Str("Song A")
    ensures PlainItem(Rock, 7) && Rock.Keys <= Columns(Tracks)
    ensures "name" !in Rock && "name" !in Timestamps && "genres" in Rock && Rock["genres"] == Str("rock")
  {
    assert RowBinds(SongARow(now));
  }

  /** The same two items in ONE batch: track 7 is new, the session does not see
      its own pending insert, both items are staged as inserts and nothing is
      committed. */
  lemma PartialUpdateInOneBatchRollsBack(env: Env)
    ensures var r := ProcessData(Tracks, Empty, [SongA, Rock], env);
            !r.status.Committed? && r.store == Empty
  {
    var items := [SongA, Rock];
    RepeatedNewIdRollsBack(Tracks, Empty, items, env, 0, 1, 7);
  }

  const TwoUsers: Store := Empty.(users := map[1 := map["id" := Int(1), "email" := Str("a")], 2 := map["id" := Int(2), "email" := Str("b")]])
  const TakeB: Item := map["id" := Int(1), "email" := Str("b")]
  const TakeC: Item := map["id" := Int(2), "email" := Str("c")]

  /** The table after that batch: both rows replaced by the items, with NULL
      audit columns. */
  function HandedOver(): Table {
    TwoUsers.users[1 := Cleared(TakeB)][2 := Cleared(TakeC)]
  }

  /** Patching a row with an item that supplies every column the row holds
      gives the item. */
  lemma PatchCovers(kind: Kind, row: Row, x: Item)
    requires row.Keys <= x.Keys <= Columns(kind)
    ensures Patch(kind, row, x) == x
  {
  }

  /** A one-item batch without audit fields rewriting every column of stored
      row `k` stages that row as the item. */
  lemma RewriteStage(kind: Kind, base: Table, x: Item, k: int, env: Env)
    requires k in base && "id" in x && x["id"] == Int(k) && x.Keys !! Timestamps
    requires base[k].Keys <= Cleared(x).Keys <= Columns(kind)
    ensures StageAll(kind, base, [x], env) == Ok(Staged(base[k := Cleared(x)], [], false))
  {
    NoStampsNormalize(x, env.parse);
    PatchCovers(kind, base[k], Cleared(x));
    StagePatchFirst(kind, base, Cleared(x), k, env.now);
    assert [x][..0] == [];
    StageAllLast(kind, base, [x], env, Staged(base, [], false), Cleared(x));
  }

  /** A batch of two items without audit fields, each rewriting every column
      of a different stored row, stages both rows as the items. */
  lemma TwoRewritesStage(kind: Kind, base: Table, x1: Item, x2: Item, k1: int, k2: int, env: Env)
    requires k1 in base && k2 in base && k1 != k2
    requires "id" in x1 && x1["id"] == Int(k1) && "id" in x2 && x2["id"] == Int(k2)
    requires x1.Keys !! Timestamps && x2.Keys !! Timestamps
    requires base[k1].Keys <= Cleared(x1).Keys <= Columns(kind)
    requires base[k2].Keys <= Cleared(x2).Keys <= Columns(kind)
    ensures StageAll(kind, base, [x1, x2], env) == Ok(Staged(base[k1 := Cleared(x1)][k2 := Cleared(x2)], [], false))
  {
    RewriteStage(kind, base, x1, k1, env);
    NoStampsNormalize(x2, env.parse);
    var st1 := Staged(base[k1 := Cleared(x1)], [], false);
    StageRewrite(kind, base, st1, Cleared(x2), k2, env.now);
    assert [x1, x2][..1] == [x1];
    StageAllLast(kind, base, [x1, x2], env, st1, Cleared(x2));
  }

  /** Staging an item that supplies every column of stored row `k`, not yet
      touched by the batch, replaces that row with the item. */
  lemma StageRewrite(kind: Kind, base: Table, st: Staged, x: Item, k: int, now: DateTime)
    requires k in base && k in st.table && st.table[k] == base[k]
    requires "id" in x && x["id"] == Int(k) && base[k].Keys <= x.Keys <= Columns(kind)
    ensures Stage(kind, base, st, x, now) == Ok(st.(table := st.table[k := x]))
  {
    PatchCovers(kind, base[k], x);
  }

  lemma HandOverStaged(env: Env)
    ensures StageAll(Users, TwoUsers.users, [TakeB, TakeC], env) == Ok(Staged(HandedOver(), [], false))
  {
    var base := TwoUsers.users;
    assert base[1].Keys <= Cleared(TakeB).Keys <= Columns(Users);
    assert base[2].Keys <= Cleared(TakeC).Keys <= Columns(Users);
    TwoRewritesStage(Users, base, TakeB, TakeC, 1, 2, env);
  }

  lemma HandedOverBinds()
    ensures Bindable(HandedOver())
  {
    var t := HandedOver();
    assert RowBinds(t[1]) && RowBinds(t[2]);
  }

  lemma HandedOverUnique()
    ensures UniqueEmails(HandedOver())
  {
    var t := HandedOver();
    assert t.Keys == {1, 2};
    assert Get(t[1], "email") == Str("b") && Get(t[2], "email") == Str("c");
  }

  lemma HandedOverTooSoon()
    ensures !EmailsFreeInFlushOrder(TwoUsers.users, HandedOver())
  {
    var t := HandedOver();
    var base := TwoUsers.users;
    assert Get(t[1], "email") == Str("b") && Get(base[1], "email") == Str("a") && Get(base[2], "email") == Str("b");
  }

  /** Users 1 and 2 hold emails "a" and "b"; one batch moves user 1 to "b" and
      user 2 to "c". The table the batch would leave has unique emails, but
      the UPDATE of user 1 is flushed while user 2 still holds "b", so the
      batch is rolled back. */
  lemma EmailHandOverRollsBack(env: Env)
    ensures UniqueEmails(HandedOver())
    ensures StageAll(Users, TwoUsers.users, [TakeB, TakeC], env) == Ok(Staged(HandedOver(), [], false))
    ensures ProcessData(Users, TwoUsers, [TakeB, TakeC], env) == BatchResult(TwoUsers, RolledBack(DuplicateEmail))
  {
    HandOverStaged(env);
    HandedOverBinds();
    HandedOverUnique();
    HandedOverTooSoon();
  }

  const OneUserOneTrack: Store := Store(map[1 := map["id" := Int(1)]], map[100 := map["id" := Int(100)]], [], [])
  const Listen: Item := map["user_id" := Int(1), "items" := List([Int(100), Int(999)])]

  /** `{"user_id": 1, "items": [100, 999]}` with user 1 and track 100 stored
      and track 999 unknown: one history for user 1 whose track set is [100]. */
  lemma UnknownTrackDropped(env: Env)
    ensures var r := ProcessListenHistory(OneUserOneTrack, [Listen], env);
            && r.status.Committed?
            && |r.store.histories| == 1
            && r.store.histories[0].userId == 1
            && TracksOf(r.store.links, r.store.histories[0].id) == [100]
  {
    var s := OneUserOneTrack;
    assert Resolve(Listen["items"].elems, s.tracks) == [100] by {
      var ids := Listen["items"].elems;
      assert ids[..1] == [Int(100)] && ids[..1][..0] == [];
    }
    OneListenCommits(s, Listen, env);
  }

  /** A one-item listen-history batch whose user exists, whose track ids are a
      list and which carries no timestamps commits exactly the one history of
      `ReconcileItem`, stamped with the ingestion time. */
  lemma OneListenCommits(s: Store, x: Item, env: Env)
    requires HistoryRefsOk(s)
    requires "user_id" in x && Resolves(s.users, x["user_id"])
    requires "items" in x && x["items"].List? && "created_at" !in x && "updated_at" !in x
    ensures var r := ProcessListenHistory(s, [x], env);
            && r.status.Committed?
            && |r.store.histories| == |s.histories| + 1
            && r.store.histories[|s.histories|].userId == x["user_id"].i
            && TracksOf(r.store.links, r.store.histories[|s.histories|].id) == Resolve(x["items"].elems, s.tracks)
  {
    assert Get(x, "created_at") == Null && Get(x, "updated_at") == Null;
    assert ConvertDate(Null, env.parse) == Ok(Null);
    var r := ReconcileItem(s, x, env);
    assert r.Ok?;
    assert Stamped(r.value.histories[|s.histories|]);
    assert [x][..0] == [];
    assert ReconcileAll(s, [x], env) == r;
    NewHistoryTracks(s, x, env);
  }

  const User1: Item := map["id" := Int(1)]
  const Track100: Item := map["id" := Int(100)]
  const Listen100: Item := map["user_id" := Int(1), "items" := List([Int(100)])]

  /** A bare entity item as first inserted at ingestion time `now`. */
  function Inserted(x: Item, now: DateTime): Row {
    x["created_at" := Date(now)]["updated_at" := Date(now)]
  }

  /** The store after the users batch of the cycle below. */
  function UsersSynced(now: DateTime): Store {
    Empty.(users := map[1 := Inserted(User1, now)])
  }

  /** The store after its tracks batch. */
  function EntitiesSyncedStore(now: DateTime): Store {
    UsersSynced(now).(tracks := map[100 := Inserted(Track100, now)])
  }

  /** User 1, then track 100, each in a batch of its own. */
  lemma EntitiesSynced(env: Env)
    ensures FetchAndProcess(Users, Empty, [User1], env) == Ok(UsersSynced(env.now))
    ensures FetchAndProcess(Tracks, UsersSynced(env.now), [Track100], env) == Ok(EntitiesSyncedStore(env.now))
  {
    UserSynced(env);
    TrackSynced(env);
  }

  lemma UserSynced(env: Env)
    ensures FetchAndProcess(Users, Empty, [User1], env) == Ok(UsersSynced(env.now))
  {
    assert PlainItem(User1, 1) && User1.Keys <= Columns(Users);
    PlainInsertCommits(Users, Empty, User1, 1, env);
  }

  lemma TrackSynced(env: Env)
    ensures FetchAndProcess(Tracks, UsersSynced(env.now), [Track100], env) == Ok(EntitiesSyncedStore(env.now))
  {
    assert PlainItem(Track100, 100) && Track100.Keys <= Columns(Tracks);
    PlainInsertCommits(Tracks, UsersSynced(env.now), Track100, 100, env);
  }

  /** Against that store the history of user 1 listing track 100 commits and
      links the track. */
  lemma ListenAfterSync(env: Env)
    ensures var r := ProcessListenHistory(EntitiesSyncedStore(env.now), [Listen100], env);
            && r.status.Committed?
            && |r.store.histories| == 1
            && TracksOf(r.store.links, r.store.histories[0].id) == [100]
  {
    var s2 := EntitiesSyncedStore(env.now);
    assert Resolve(Listen100["items"].elems, s2.tracks) == [100] by {
      assert Listen100["items"].elems[..0] == [];
    }
    assert HistoryRefsOk(s2) && Resolves(s2.users, Listen100["user_id"]);
    OneListenCommits(s2, Listen100, env);
  }

  /** Tracks are synced before listen history within a cycle: a history may
      name a user and a track first delivered in the same cycle. */
  lemma HistorySeesSameCycleTracks(env: Env)
    ensures var r := FetchAll(Empty, Fetched([User1], [Track100], [Listen100]), env);
            && r.escaped.None?
            && |r.store.histories| == 1
            && TracksOf(r.store.links, r.store.histories[0].id) == [100]
  {
    EntitiesSynced(env);
    ListenAfterSync(env);
    ThreeBatchCycle(Empty, Fetched([User1], [Track100], [Listen100]), UsersSynced(env.now), EntitiesSyncedStore(env.now), env);
  }
}

=== FILE: upsert.dfy ===
/** The upsert engine `update_or_create_item`, seen through a session whose
    lookups see every row staged so far: an existing row is patched with the
    supplied columns, a missing one is created from exactly the supplied fields. */
module UpsertEngine {
  import opened Wrappers
  import opened Values
  import opened Models

  /** The mapped columns of `kind` that `item` supplies. */
  function Supplied(kind: Kind, item: Item): (cs: set<string>)
    ensures cs <= item.Keys && cs <= Columns(kind)
  {
    item.Keys * Columns(kind)
  }

  /** `r` is `row` with every supplied column taken from `item` and every other
      column kept as it was. */
  predicate IsPatchOf(r: Row, row: Row, item: Item, cols: set<string>) {
    && r.Keys == row.Keys + (item.Keys * cols)
    && (forall c :: c in item && c in cols ==> r[c] == item[c])
    && (forall c :: c in row && !(c in item && c in cols) ==> r[c] == row[c])
  }

  /** `r` is the row inserted for `item`: exactly the supplied fields, except that
      a timestamp column that is missing or NULL takes the column default `now`
      (an INSERT leaves out None-valued columns, so the default fires). */
  predicate IsInsertOf(r: Row, item: Item, now: DateTime) {
    && r.Keys == item.Keys + Timestamps
    && (forall c :: c in item && !(c in Timestamps && item[c] == Null) ==> r[c] == item[c])
    && (forall c :: c in Timestamps && Get(item, c) == Null ==> r[c] == Date(now))
  }

  /** Setting every key of `item` on an existing row: keys that are not mapped
      columns never reach the table. */
  function Patch(kind: Kind, row: Row, item: Item): (r: Row)
    ensures IsPatchOf(r, row, item, Columns(kind))
  {
    row + map c | c in Supplied(kind, item) :: item[c]
  }

  /** `model(**item)` as it lands in the table. */
  function InsertRow(item: Item, now: DateTime): (r: Row)
    ensures IsInsertOf(r, item, now)
  {
    item + map c | c in Timestamps && Get(item, c) == Null :: Date(now)
  }

  /** What `session.get(model, id)` makes of `id` against the rows of `t`: an
      integer, or a JSON array of one integer, names a key (found or not); an
      array of any other length is refused outright; any other value finds no
      row. */
  datatype Lookup = Found(k: int) | Missing | Refused

  function LookUp(t: Table, id: Value): (r: Lookup)
    ensures r.Found? ==> r.k in t
    ensures r.Refused? <==> id.List? && |id.elems| != 1
    ensures id.Int? ==> r == (if id.i in t then Found(id.i) else Missing)
  {
    match id
    case Int(k) => if k in t then Found(k) else Missing
    case List(es) =>
      if |es| != 1 then Refused
      else if es[0].Int? && es[0].i in t then Found(es[0].i)
      else Missing
    case _ => Missing
  }

  /** When `update_or_create_item` raises a Python exception before anything
      reaches the database: `item` has no `id`, or the lookup finds no row and
      the constructor meets a keyword that is not a mapped column. */
  predicate RaisesOn(kind: Kind, t: Table, item: Item) {
    "id" !in item || (LookUp(t, item["id"]).Missing? && !(item.Keys <= Columns(kind)))
  }

  /** `update_or_create_item(session, model, item)`. A missing `id` is a
      KeyError; a constructor keyword that is not a column is a TypeError; an
      `id` that is not an integer is refused by the database, whether by the
      lookup itself or when its row is written. Only the row keyed by
      `item["id"]` changes. */
  function Upsert(kind: Kind, t: Table, item: Item, now: DateTime): (r: Result<Table, Fault>)
    ensures "id" !in item ==> r == Err(Raised(KeyError("id")))
    ensures r.Ok? <==> "id" in item && item["id"].Int? && !RaisesOn(kind, t, item)
    ensures r.Err? ==> r.error == (if RaisesOn(kind, t, item) then Raised(if "id" in item then TypeError("unexpected keyword") else KeyError("id"))
                                   else Storage(MalformedKey))
    ensures "id" in item && item["id"].List? && |item["id"].elems| != 1 ==> r == Err(Storage(MalformedKey))
    ensures r.Ok? ==> r.value.Keys == t.Keys + {item["id"].i}
    ensures r.Ok? ==> forall k :: k in t && k != item["id"].i ==> r.value[k] == t[k]
    ensures "id" in item && item["id"].Int? && item["id"].i in t ==>
              r.Ok? && IsPatchOf(r.value[item["id"].i], t[item["id"].i], item, Columns(kind))
    ensures "id" in item && item["id"].Int? && item["id"].i !in t ==>
              (r.Ok? <==> item.Keys <= Columns(kind)) &&
              (r.Ok? ==> IsInsertOf(r.value[item["id"].i], item, now))
    ensures "id" in item && item["id"].Int? && item["id"].i !in t && !(item.Keys <= Columns(kind)) ==>
              r == Err(Raised(TypeError("unexpected keyword")))
  {
    if "id" !in item then Err(Raised(KeyError("id")))
    else match item["id"]
      case Int(k) =>
        if k in t then Ok(t[k := Patch(kind, t[k], item)])
        else if item.Keys <= Columns(kind) then Ok(t[k := InsertRow(item, now)])
        else Err(Raised(TypeError("unexpected keyword")))
      case _ =>
        if LookUp(t, item["id"]).Missing? && !(item.Keys <= Columns(kind)) then Err(Raised(TypeError("unexpected keyword")))
        else Err(Storage(MalformedKey))
  }

  /** An upsert keeps every row keyed by its own `id` and holding only mapped
      columns. */
  lemma UpsertKeepsKeyedRows(kind: Kind, t: Table, item: Item, now: DateTime)
    requires KeyedRows(kind, t)
    requires Upsert(kind, t, item, now).Ok?
    ensures KeyedRows(kind, Upsert(kind, t, item, now).value)
  {
    var k := item["id"].i;
    var r := Upsert(kind, t, item, now).value;
    assert r == t[k := r[k]];
    if k in t {
      assert r[k].Keys == t[k].Keys + Supplied(kind, item);
      assert r[k]["id"] == item["id"];
    } else {
      assert r[k].Keys == item.Keys + Timestamps;
    }
  }

  /** An item without NULL timestamps upserted twice leaves the table as one
      upsert does; so does any item whose id was already stored. */
  lemma UpsertIdempotent(kind: Kind, t: Table, item: Item, now: DateTime)
    requires Upsert(kind, t, item, now).Ok?
    requires item["id"].i in t || forall c :: c in Timestamps && c in item ==> item[c] != Null
    ensures Upsert(kind, Upsert(kind, t, item, now).value, item, now) == Upsert(kind, t, item, now)
  {
    var k := item["id"].i;
    var t1 := Upsert(kind, t, item, now).value;
    UpsertHoldsSupplied(kind, t, item, now);
    PatchAbsorbs(kind, t1[k], item);
    assert t1[k := t1[k]] == t1;
  }

  /** After such an upsert the row holds every supplied column's value. */
  lemma UpsertHoldsSupplied(kind: Kind, t: Table, item: Item, now: DateTime)
    requires Upsert(kind, t, item, now).Ok?
    requires item["id"].i in t || forall c :: c in Timestamps && c in item ==> item[c] != Null
    ensures var row := Upsert(kind, t, item, now).value[item["id"].i];
            forall c :: c in Supplied(kind, item) ==> c in row && row[c] == item[c]
  {
    var k := item["id"].i;
    var row := Upsert(kind, t, item, now).value[k];
    forall c | c in Supplied(kind, item) ensures c in row && row[c] == item[c] {
      if k !in t {
        assert !(c in Timestamps && item[c] == Null);
      }
    }
  }

  /** Patching a row that already holds every supplied value changes nothing. */
  lemma PatchAbsorbs(kind: Kind, row: Row, item: Item)
    requires forall c :: c in Supplied(kind, item) ==> c in row && row[c] == item[c]
    ensures Patch(kind, row, item) == row
  {
    var again := Patch(kind, row, item);
    assert again.Keys == row.Keys;
    assert forall c :: c in row ==> again[c] == row[c];
  }

  /** The converse case: a new row whose item carries an explicit NULL
      timestamp gets the default on insert, and a second upsert of the same
      item writes the NULL over it. */
  lemma UpsertNotIdempotentOnNullStamp(kind: Kind, t: Table, item: Item, now: DateTime)
    requires "id" in item && item["id"].Int? && item["id"].i !in t
    requires item.Keys <= Columns(kind)
    requires "created_at" in item && item["created_at"] == Null
    ensures Upsert(kind, t, item, now).Ok?
    ensures Upsert(kind, t, item, now).value[item["id"].i]["created_at"] == Date(now)
    ensures Upsert(kind, Upsert(kind, t, item, now).value, item, now).value[item["id"].i]["created_at"] == Null
  {
  }

  /** The ids that the items of a sequence name. */
  function IdsOf(items: seq<Item>): set<int> {
    set i | 0 <= i < |items| && Get(items[i], "id").Int? :: Get(items[i], "id").i
  }

  lemma IdsOfSnoc(items: seq<Item>, x: Item)
    requires "id" in x && x["id"].Int?
    ensures IdsOf(items + [x]) == IdsOf(items) + {x["id"].i}
  {
    var s := items + [x];
    assert Get(s[|items|], "id") == x["id"];
    forall k | k in IdsOf(items) ensures k in IdsOf(s) {
      var i :| 0 <= i < |items| && Get(items[i], "id").Int? && Get(items[i], "id").i == k;
      assert s[i] == items[i];
    }
    forall k | k in IdsOf(s) ensures k in IdsOf(items) + {x["id"].i} {
      var i :| 0 <= i < |s| && Get(s[i], "id").Int? && Get(s[i], "id").i == k;
      if i < |items| { assert s[i] == items[i]; }
    }
  }

  /** Upserting `items` left to right, stopping at the first failure. */
  function UpsertAll(kind: Kind, t: Table, items: seq<Item>, now: DateTime): (r: Result<Table, Fault>)
    ensures r.Ok? ==> r.value.Keys == t.Keys + IdsOf(items)
    ensures r.Ok? ==> forall k :: k in t && k !in IdsOf(items) ==> r.value[k] == t[k]
    ensures r.Ok? && KeyedRows(kind, t) ==> KeyedRows(kind, r.value)
    decreases |items|
  {
    if |items| == 0 then Ok(t)
    else
      var prefix, x := items[..|items| - 1], items[|items| - 1];
      assert items == prefix + [x];
      match UpsertAll(kind, t, prefix, now)
      case Err(e) => Err(e)
      case Ok(t') =>
        var r := Upsert(kind, t', x, now);
        if r.Ok? then
          IdsOfSnoc(prefix, x);
          if KeyedRows(kind, t) then UpsertKeepsKeyedRows(kind, t', x, now); r else r
        else r
  }

  /** Folding over a concatenation is folding over each part in turn. */
  lemma {:induction false} UpsertAllAppend(kind: Kind, t: Table, a: seq<Item>, b: seq<Item>, now: DateTime)
    ensures UpsertAll(kind, t, a + b, now) ==
            (match UpsertAll(kind, t, a, now)
             case Ok(t') => UpsertAll(kind, t', b, now)
             case Err(e) => Err(e))
    decreases |b|
  {
    if |b| == 0 {
      assert a + b == a;
    } else {
      var b' := b[..|b| - 1];
      assert (a + b)[..|a + b| - 1] == a + b';
      assert (a + b)[|a + b| - 1] == b[|b| - 1];
      UpsertAllAppend(kind, t, a, b', now);
    }
  }

  /** Last write wins: after a successful fold, every column the last item
      supplies holds that item's value (a NULL timestamp on a freshly inserted
      row excepted, which takes the column default). */
  lemma LastWriteWins(kind: Kind, t: Table, items: seq<Item>, x: Item, now: DateTime)
    requires UpsertAll(kind, t, items + [x], now).Ok?
    ensures "id" in x && x["id"].Int?
    ensures forall c :: c in Supplied(kind, x) && !(c in Timestamps && x[c] == Null) ==>
              UpsertAll(kind, t, items + [x], now).value[x["id"].i][c] == x[c]
  {
    assert (items + [x])[..|items|] == items;
    assert (items + [x])[|items|] == x;
  }

  /** A partial update after a create: every non-audit column holds the
      patch's value where the patch supplies it and the created value
      otherwise. */
  lemma CreateThenPatch(kind: Kind, t: Table, x: Item, p: Item, now: DateTime)
    requires "id" in x && x["id"].Int? && x["id"].i !in t && x.Keys <= Columns(kind)
    requires "id" in p && p["id"] == x["id"] && p.Keys <= Columns(kind)
    ensures Upsert(kind, t, x, now).Ok?
    ensures var t1 := Upsert(kind, t, x, now).value;
            var t2 := Upsert(kind, t1, p, now);
            && t2.Ok? && x["id"].i in t2.value
            && forall c :: c !in Timestamps ==> Get(t2.value[x["id"].i], c) == (if c in p then p[c] else Get(x, c))
  {
    var k := x["id"].i;
    var t1 := Upsert(kind, t, x, now).value;
    var row := t1[k];
    var t2 := Upsert(kind, t1, p, now);
    assert t2.Ok? && IsPatchOf(t2.value[k], row, p, Columns(kind));
    forall c | c !in Timestamps ensures Get(t2.value[k], c) == (if c in p then p[c] else Get(x, c)) {
      if c !in p && c in x {
        assert row[c] == x[c];
      }
    }
  }

  const TestUser: Item := map["id" := Int(1), "first_name" := Str("test"), "last_name" := Str("user"), "email" := Str("test@example.com")]
  const TestPatch: Item := map["id" := Int(1), "first_name" := Str("updated"), "email" := Str("updated@example.com")]

  /** The scenario of the repository's upsert test: a user created from four
      fields, then patched with two of them, keeps the third. */
  lemma UpsertTestScenario(now: DateTime)
    ensures var t1 := Upsert(Users, map[], TestUser, now);
            t1.Ok? &&
            var t2 := Upsert(Users, t1.value, TestPatch, now);
            && t2.Ok? && 1 in t2.value
            && Get(t2.value[1], "first_name") == Str("updated")
            && Get(t2.value[1], "email") == Str("updated@example.com")
            && Get(t2.value[1], "last_name") == Str("user")
  {
    TestItemsFacts();
    CreateThenPatch(Users, map[], TestUser, TestPatch, now);
  }

  lemma TestItemsFacts()
    ensures TestUser.Keys <= Columns(Users) && TestPatch.Keys <= Columns(Users)
    ensures "first_name" !in Timestamps && "email" !in Timestamps && "last_name" !in Timestamps
    ensures "first_name" in TestPatch && "email" in TestPatch && "last_name" !in TestPatch
    ensures Get(TestUser, "last_name") == Str("user")
  {
  }
}

=== FILE: values.dfy ===
/** Field values as they arrive in the JSON payloads and as columns hold them,
    the exceptions the reconcile code can raise, and the environment it reads. */
module Values {
  import opened Wrappers

  /** A naive timestamp, the shape `datetime.fromisoformat` produces. */
  datatype DateTime = DateTime(year: int, month: int, day: int, hour: int, minute: int, second: int, microsecond: int)

  /** One field value: JSON null, an integer, a string, a parsed timestamp,
      or a JSON array. */
  datatype Value =
    | Null
    | Int(i: int)
    | Str(s: string)
    | Date(d: DateTime)
    | List(elems: seq<Value>)

  /** One record of an API payload: field name to value. */
  type Item = map<string, Value>

  /** `item.get(key)`: the value under `key`, or `Null` when it is absent. */
  function Get(item: Item, key: string): Value {
    if key in item then item[key] else Null
  }

  /** The Python exceptions that are NOT storage errors and therefore escape a batch. */
  datatype Exception =
    | KeyError(key: string)      // a required field is missing from an item
    | ValueError(text: string)   // a date string the ISO parser rejects
    | TypeError(text: string)    // an unknown constructor keyword, a non-iterable track list

  /** What the reconcile code reads from outside: the ingestion time used by the
      `created_at`/`updated_at` column defaults, and the ISO-8601 parser, a
      partial function (`None` where Python raises ValueError). */
  datatype Env = Env(now: DateTime, parse: string -> Option<DateTime>)
}

=== FILE: wrappers.dfy ===
/** Failure-compatible wrappers used across the model: an optional value and a
    result that either carries a value or the reason it could not be produced. */
module Wrappers {

  datatype Option<+T> = None | Some(value: T)

  /** `Ok` carries a value; `Err` carries the error that stopped the computation.
      Usable with `:-`, so the first error of a sequence of steps wins. */
  datatype Result<+T, +E> = Ok(value: T) | Err(error: E) {

    predicate IsFailure() {
      Err?
    }

    function PropagateFailure<U>(): Result<U, E>
      requires Err?
    {
      Err(error)
    }

    function Extract(): T
      requires Ok?
    {
      value
    }
  }
}
